=== FILE: README.md ===
# Campus marketplace data layer in Dafny

This project models the local-storage data layer of a campus marketplace app
(ride pooling, item renting, delivery errands, bills and chat) and the pure
list computations its screens run over that data.

The browser's local storage is a `Storage.Store`: seven keys (users, rides,
items, tasks, bills, chats, messages). Each key is either absent or holds a
whole collection. Every `db.*` operation of the local branch is a pure function
from the store and its inputs to the new store and the answer.

- Reading a key goes through `Storage.GetData`. When the key is absent, this
  saves the key's seed collection first, so reads can change the store too.
- Random ids and clock readings are parameters.
- Failures thrown by the source are `Wrappers.Result` errors.

The modules follow the source:

- `Text`: the string built-ins the code relies on: `trim`, ASCII
  `toLowerCase`, `includes`, and the whitespace `replace`s.
- `Seqs`: `filter`, `findIndex`, `map`, counting and summing.
- `Ordering`: the default string sort.
- `Records`: the entities of `types.ts`.
- `Seeds`: the fixtures of `constants.ts`.
- `Storage`: `localDb.getData` and the seed user.
- `Accounts`: `auth` and `users`.
- `Listings`: rides, items, tasks and bills.
- `Chats`: conversations and messages.
- One module per screen: `Pooling`, `Renting`, `Delivery`, `Dashboard`, `Bills`.

Two behaviours of the code are worth stating up front, because the model keeps them:

- `rides.join`, `items.book` and `tasks.accept` have no guard (utils/db.ts:281-292,
  326-333, 362-369). `join` leaves a full ride as it is. `book` and `accept`
  overwrite whatever status the record had. All three answer `true` in every case.
- `users.get` falls back to the creators embedded in the seed constants
  (utils/db.ts:111-122). It does not scan what is stored under the other keys.

## Model

| member | source | states |
|---|---|---|
| Storage.GetData | utils/db.ts:19-26 | an absent key is saved with its default and the default returned; a saved key is returned unchanged |
| Storage.GetDataIdempotent | utils/db.ts:19-26 | seeding happens once: a second read returns what the first saved, whatever default it passes |
| Storage.EnsureSeedUser | utils/db.ts:35-53 | when a stored user has the seed id the users are left as read; otherwise exactly the seed user is appended after them; no other key changes |
| Storage.EnsureSeedUserIdempotent | utils/db.ts:35-53 | running it a second time changes nothing |
| Text.ToLower | utils/db.ts:62 | same length, no capital left, every character lower-cased in place |
| Text.ToLowerIdempotent | utils/db.ts:62 | lower-casing twice is lower-casing once |
| Text.Trim | utils/db.ts:62 | the result is a slice of the input with whitespace only stripped from the ends and none left at either end; space-free text is unchanged |
| Text.TrimIdempotent | utils/db.ts:62 | trimming twice is trimming once |
| Text.NormalizeEmail | utils/db.ts:62 | the normalised email has no capital letter and is no longer than the typed one (its value is pinned by the `trim` and lower-casing lemmas below) |
| Text.TrimUnique | utils/db.ts:62 | `trim` is pinned down by its promise: any infix with only whitespace around it and none at its own ends is the trim |
| Text.TrimIgnoresPadding | utils/db.ts:62 | whitespace added before and after a string leaves its trim unchanged |
| Text.TrimToLower | utils/db.ts:62 | trimming and lower-casing commute |
| Text.NormalizeIgnoresPadding | utils/db.ts:62-66 | an email typed with surrounding whitespace normalises to the same address as without it, so sign-in finds the same account |
| Text.NormalizeIgnoresCase | utils/db.ts:77-94 | an email typed in any letter case normalises to the same address as its lower-cased form, so sign-up sees the same conflict |
| Text.NormalizeIdempotent | utils/db.ts:62 | a normalised email normalises to itself, so stored and typed addresses compare consistently |
| Text.Includes | components/Pooling.tsx:111-112 | true exactly when the keyword occurs at some position of the text |
| Text.RemoveSpaces | utils/db.ts:83 | exactly the non-whitespace characters, in order: an order-preserving sub-sequence with no whitespace, shorter than the input by its number of whitespace characters |
| Text.DashRuns | utils/db.ts:308 | no whitespace is left, the result is no longer than the input, space-free text is unchanged |
| Text.DashRunsIdempotent | utils/db.ts:308 | dashing whitespace runs twice is dashing them once |
| Text.DashRunsKeepsWord | utils/db.ts:308 | text without whitespace passes through unchanged in front of whatever follows |
| Text.DashRunsCollapsesRun | utils/db.ts:308 | a maximal whitespace run of any length becomes exactly one '-' |
| Text.ToLowerAppend | utils/db.ts:308 | lower-casing distributes over concatenation |
| Seqs.Filter | components/Bills.tsx:43 | no longer than the list; it keeps only elements that satisfy the predicate and keeps every one that does |
| Seqs.Count | components/Dashboard.tsx:26-28 | at most the list's length, and zero exactly when no element satisfies the predicate |
| Seqs.FirstIndex | utils/db.ts:131 | the first position satisfying the predicate, or none exactly when no position does |
| Seqs.MapWhere | utils/db.ts:172-174 | same length; matching positions are transformed, all others kept |
| Seqs.FilterPartition | components/Bills.tsx:43 | a predicate and its complement split a list: the two filters together hold it as a multiset |
| Seqs.FilterIsSubseq | components/Pooling.tsx:116 | what a filter keeps stays in its original order |
| Seqs.FilterMultiplicity | components/Pooling.tsx:116 | a filter keeps every copy of a matching element and no copy of any other |
| Seqs.CountAppend | components/Dashboard.tsx:26-28 | a count adds up over concatenation |
| Seqs.SumOfAppend | components/Bills.tsx:44 | a sum adds up over concatenation |
| Ordering.SortStrings | utils/db.ts:205 | the result is sorted, a permutation of the input, same length |
| Ordering.SortPairSymmetric | utils/db.ts:205 | sorting `[a, b]` and `[b, a]` gives the same pair |
| Ordering.SortSortedIsIdentity | utils/db.ts:210 | re-sorting an already sorted participant list changes nothing |
| Ordering.SortStringsIdempotent | utils/db.ts:210 | sorting twice is sorting once |
| Accounts.AvatarFor | utils/db.ts:83 | the newcomer avatar is the avatar service prefix followed by the name with its whitespace removed |
| Accounts.SignIn | utils/db.ts:60-69 | "User not found" exactly when no stored email normalises to the typed one; otherwise the first such user |
| Accounts.SignUp | utils/db.ts:75-100 | "User already exists", with no user added, exactly when the normalised email is taken; otherwise exactly one newcomer is appended: normalised email, trimmed name, rating 5.0, unverified, streak 0, empty log, empty bio |
| Accounts.SignUpThenSignIn | utils/db.ts:60-100 | after signing up, signing in with the same address in any case or padding returns the newcomer |
| Accounts.SignUpTwiceConflicts | utils/db.ts:91-96 | a second sign-up with an equivalent address fails and adds nobody |
| Accounts.LookupUser | utils/db.ts:111-122 | the user returned always has the requested id: the first stored one, else a seed creator, else the "Unknown User" placeholder |
| Accounts.UsersGet | utils/db.ts:109-123 | `users.get` never fails and answers with the requested id through the same fallback chain |
| Accounts.Merge | utils/db.ts:135 | every field the patch names is overwritten, every other field kept |
| Accounts.MergeNoChange | utils/db.ts:135 | the empty patch changes nothing |
| Accounts.UsersUpdate | utils/db.ts:127-138 | fails exactly when no stored user has the id; otherwise only the first such position is replaced by the merged record, length and every other user kept |
| Accounts.UpdateThenGet | utils/db.ts:109-138 | an update that keeps the id is what the next lookup of that id returns |
| Listings.RidesGetAll | utils/db.ts:260-266 | the saved rides, or the seed rides, now saved, for a fresh store |
| Listings.ItemsGetAll | utils/db.ts:300-306 | the saved items, or the seed items, now saved |
| Listings.TasksGetAll | utils/db.ts:340-346 | the saved tasks, or the seed tasks, now saved |
| Listings.BillsGetAll | utils/db.ts:155-165 | the saved bills, or the seed bills, now saved |
| Listings.BillsIgnoreUser | utils/db.ts:155-165 | every user id gets the same bills |
| Listings.RidesCreate | utils/db.ts:267-277 | one ride is put in front of the old list, with the fresh id, the creator as driver and the draft's fields |
| Listings.ImageUrl | utils/db.ts:308-309 | the picture URL is the picture service prefix, then exactly `ImageSeed(title)` (the title with whitespace runs dashed and lower-cased), then the "/200/200" size suffix |
| Listings.ImageSeed | utils/db.ts:308 | the image seed has no whitespace and no capitals, is no longer than the title, and equals a title that already has neither |
| Listings.ImageSeedKeepsWord | utils/db.ts:308 | a word of the title reaches the seed lower-cased, followed by the seed of the rest |
| Listings.ImageSeedDashesRun | utils/db.ts:308 | each maximal whitespace run of the title becomes one '-' in the seed |
| Listings.ItemsCreate | utils/db.ts:307-322 | one item is put in front, owned by the creator, available, with the title-seeded picture and the draft's fields |
| Listings.TasksCreate | utils/db.ts:347-358 | one task is put in front, requested by the creator, open, with the draft's fields |
| Listings.CreatedRideListedFirst | utils/db.ts:260-277 | the next read lists the new ride first, followed by the rides read before |
| Listings.RidesJoin | utils/db.ts:281-292 | answers true; a ride with the id and a seat loses exactly one seat; every other ride, a full one included, is unchanged; seats never go negative |
| Listings.JoinFullRideIsNoOp | utils/db.ts:286-292 | joining a ride with no seat leaves the rides as they were and still answers true |
| Listings.JoinDrainsSeats | utils/db.ts:281-292 | n joins of the only ride with the id, when it has n seats, leave it with none and every other ride unchanged |
| Listings.ItemsBook | utils/db.ts:326-333 | answers true; every item with the id becomes rented whatever its status; nothing else changes |
| Listings.BookIdempotent | utils/db.ts:326-333 | booking twice is booking once |
| Listings.TasksAccept | utils/db.ts:362-369 | answers true; every task with the id becomes assigned whatever its status; nothing else changes |
| Listings.AcceptIdempotent | utils/db.ts:362-369 | accepting twice is accepting once |
| Listings.BillsPay | utils/db.ts:168-177 | answers true; every bill with the id becomes paid and stamped, all its other fields kept; other bills unchanged |
| Listings.PayAgainRestamps | utils/db.ts:168-177 | paying twice ends exactly as one payment stamped with the later time |
| Chats.GetOrCreate | utils/db.ts:204-225 | an existing thread with the sorted pair and context is answered and nothing is added; otherwise one thread with the sorted pair is appended, after the stored threads saved with sorted participants; the id answered always names a matching thread |
| Chats.GetOrCreateSymmetric | utils/db.ts:204-225 | opening the thread from the other side answers the same id and changes nothing |
| Chats.SortByTime | utils/db.ts:235 | the messages rearranged into ascending timestamp order: a permutation of the input |
| Chats.GetMessages | utils/db.ts:230-238 | exactly the conversation's stored messages, each once, in ascending timestamp order |
| Chats.SendMessage | utils/db.ts:240-253 | the message is appended after every stored message and returned |
| Chats.SendThenGetMessages | utils/db.ts:230-253 | a message sent no earlier than the conversation's others is read back last, after them |
| Chats.SendLeavesOtherThreads | utils/db.ts:230-253 | sending to one conversation changes nothing that another conversation reads |
| Chats.Latest | utils/db.ts:194 | no message exactly for an empty conversation; otherwise one with the greatest timestamp, the earliest stored among equals |
| Chats.OtherParticipant | utils/db.ts:195 | the first participant who is not the user, or none when every participant is the user |
| Chats.ChatsList | utils/db.ts:184-199 | exactly the conversations that include the user, in stored order; each carries a message of its own with the greatest timestamp, the earliest stored among equals, or none exactly when it has no messages; and the very user `users.get` answers for the first other participant |
| Pooling.MentionsAny | components/Pooling.tsx:111-112 | true exactly when some keyword occurs in the text |
| Pooling.LocationType | components/Pooling.tsx:106-113 | campus exactly when the lower-cased text contains a campus keyword; city exactly when it contains a city keyword and no campus one |
| Pooling.LocationIgnoresCase | components/Pooling.tsx:107 | capitals make no difference to the classification |
| Pooling.IimRaipurCampusIsCampus | components/Pooling.tsx:106-113 | "IIM Raipur Campus" contains the city keyword "raipur" and is still campus |
| Pooling.FilteredRides | components/Pooling.tsx:116-132 | an order-preserving sub-list of the rides, all of the browsed mode, holding every admitted ride as many times as it is stored and nothing else |
| Pooling.AnyDirectionKeepsMode | components/Pooling.tsx:117-118 | with no direction chosen, the list is exactly the rides of the browsed mode |
| Pooling.DirectionNarrows | components/Pooling.tsx:116-132 | a direction only narrows the undirected list |
| Pooling.ToCityMeans | components/Pooling.tsx:123-125 | "to city" holds exactly when the destination has no campus keyword, and either the destination has a city keyword or the origin a campus one |
| Pooling.ToCampusMeans | components/Pooling.tsx:127-129 | "to campus" holds exactly when the destination has a campus keyword |
| Pooling.ToCityNotToCampus | components/Pooling.tsx:123-129 | no ride passes both chips |
| Pooling.DirectionsDisjoint | components/Pooling.tsx:116-132 | no ride is listed under both "to city" and "to campus" |
| Pooling.RideDraftOfForm | components/Pooling.tsx:54-63 | the posted date is never empty: the form's date, or "Today" when it was left empty; every other field is copied |
| Pooling.PostedRideIsDated | components/Pooling.tsx:54-63 | a ride posted from the form is listed first and carries a date, "Today" when the form's date was empty |
| Pooling.JoinDisablesLastSeat | components/Pooling.tsx:291 | after a join, the ride's button is disabled exactly when it had at most one seat |
| Renting.FilteredItems | components/Renting.tsx:101-105 | an order-preserving sub-list, all of the browsed mode and of the chosen category, holding every item meeting both as many times as it is stored |
| Renting.AllCategoriesKeepsMode | components/Renting.tsx:103 | "All" imposes nothing beyond the mode |
| Renting.CategoryNarrows | components/Renting.tsx:101-105 | a chosen category only narrows the "All" list |
| Renting.FinalPrice | components/Renting.tsx:54 | a shared item costs 0; a rented one costs the price entered |
| Renting.ItemDraftOfForm | components/Renting.tsx:54-62 | the posted price is the final price; every other field is copied |
| Renting.SharedItemIsFree | components/Renting.tsx:54-62 | a shared item is listed first, free and available, whatever price was typed |
| Renting.BookDisablesButton | components/Renting.tsx:248 | after booking, every item with the id has its button disabled and every other item's button is as before |
| Delivery.FilteredTasks | components/Delivery.tsx:101 | exactly the tasks of the browsed mode, each as many times as it is stored, in stored order |
| Delivery.ModesPartitionTasks | components/Delivery.tsx:101 | the request and offer views together hold every task exactly once |
| Delivery.TaskDraftOfForm | components/Delivery.tsx:54-61 | the deadline is never empty: the form's, or "ASAP" when it was left empty; every other field is copied |
| Delivery.PostedTaskIsOpen | components/Delivery.tsx:54-61 | a task posted from the form is listed first, open and acceptable, with a deadline that is "ASAP" when the form's was empty |
| Delivery.AcceptDisablesButton | components/Delivery.tsx:224 | after accepting, no task with the id can be accepted again; other buttons are as before |
| Dashboard.ComputeStats | components/Dashboard.tsx:26-28 | each counter is at most its collection's size, and zero exactly when nothing in it qualifies |
| Dashboard.StatsAppend | components/Dashboard.tsx:26-28 | each counter adds up over any split of its collection |
| Dashboard.StatsSingleton | components/Dashboard.tsx:26-28 | a single entry counts one exactly when it qualifies; with StatsAppend, each counter is the number of qualifying entries |
| Dashboard.BookLowersItemsStat | components/Dashboard.tsx:27 | booking the one item with an id lowers the items counter by one exactly when it was an available offer; the other counters are unchanged |
| Dashboard.JoinLowersRidesStat | components/Dashboard.tsx:26 | joining the one ride with an id lowers the rides counter exactly when it took an offered ride's last seat |
| Dashboard.AcceptLowersTasksStat | components/Dashboard.tsx:28 | accepting the one task with an id lowers the tasks counter by one exactly when it was an open request |
| Bills.FilteredBills | components/Bills.tsx:43 | exactly the bills with the tab's status, each as many times as it is stored, in stored order |
| Bills.TabsPartitionBills | components/Bills.tsx:43 | the pending and paid tabs together hold every bill exactly once |
| Bills.TotalPending | components/Bills.tsx:44 | the outstanding total is never negative when no amount is, and zero when every bill is paid |
| Bills.TotalPendingAppend | components/Bills.tsx:44 | the total adds up over any split of the bills |
| Bills.TotalPendingSingleton | components/Bills.tsx:44 | one bill contributes its amount while pending and nothing once paid; with TotalPendingAppend, the total is the sum of the pending amounts |
| Bills.SeedTotalPending | components/Bills.tsx:44 | the seed bills leave 310 outstanding |
| Bills.PayLowersTotal | components/Bills.tsx:44 | paying the one pending bill with an id lowers the total by exactly its amount |
| Bills.PayMovesBetweenTabs | components/Bills.tsx:43 | paying it moves it from the pending tab to the paid tab |

## Left out

- The remote-database branches of every operation, and the configuration detection that picks them. They are calls into a client library or stubs.
- The JSON encoding and the browser storage API. The store is an in-memory record, and a read returns exactly what the last save stored.
- Artificial delays, promises and the polling timers of the screens. Every operation runs to completion, one at a time.
- The lost update between two browsers writing the same key. Each transition is modelled as one atomic step, so there is no concurrency.
- `Math.random` ids and `new Date()` readings. They are parameters. A message timestamp is a number of milliseconds because the code compares timestamps. Bill payment stamps and chat creation times are only stored, so they are strings.
- The seed user's activity log. The source fills it randomly; here it is empty.
- `Number(...)` on form fields. The forms carry numbers already.
- React rendering and the in-flight flags that also disable buttons while a request runs.
- The rendering-only parts of the app: the other screens, the chat modal and the profile streak grid.
- Text.ToLower: lower-cases ASCII letters only. Other letters that `toLowerCase` would change are kept as they are.
- Ordering.SortStrings: compares characters, where JavaScript compares UTF-16 code units. The two orders differ only for characters outside the Basic Multilingual Plane.
- Records.User: the rating is an integer number of tenths of a star (5.0 is 50). There is no floating point.
- Records: ride costs, item prices, task and bill amounts and seat counts are integers, where JavaScript numbers are doubles. Fractional values typed into the forms' number inputs are not modelled, and sums such as the outstanding bill total are exact integer sums, not floating-point ones.
- Chats.ChatsList: for a conversation whose only participant is the user, the source looks up an undefined id. The model uses the placeholder user with the empty id.
- Chats.GetMessages: the sort is stable, but the contract does not state it. It states order, contents and multiplicity, not the relative order of messages with equal timestamps.
- Accounts.UpdateThenGet: stated only for patches that leave the id alone. A patch that renames the id is looked up under its new id.

=== FILE: accounts.dfy ===
/**
  `db.auth` and `db.users` on the local store: sign-in and sign-up by
  case-insensitive email, lookup by id with its fallback chain, and the
  profile update.
 */
module Accounts {
  import opened Wrappers
  import opened Text
  import opened Seqs
  import opened Records
  import opened Seeds
  import opened Storage

  /** A newcomer's rating: 5.0 stars. */
  const NewcomerRatingTenths := 50

  /** The avatar a newcomer gets: the avatar service seeded by the name with its whitespace removed. */
  function AvatarFor(name: string): (url: string)
    ensures |AvatarPrefix| <= |url| && url[..|AvatarPrefix|] == AvatarPrefix
    ensures NoSpace(url[|AvatarPrefix|..])
    ensures url[|AvatarPrefix|..] == RemoveSpaces(name)
  {
    AvatarPrefix + RemoveSpaces(name)
  }

  const AvatarPrefix := "https://api.dicebear.com/7.x/avataaars/svg?seed="

  /** `u`'s email normalises to `clean`. */
  predicate EmailIs(u: User, clean: string) {
    NormalizeEmail(u.email) == clean
  }

  /** The first user whose normalised email is `clean`. */
  function FindByEmail(users: seq<User>, clean: string): Option<nat> {
    FirstIndex(users, u => EmailIs(u, clean))
  }

  /** `users[i]` is the first user whose normalised email is `clean`. */
  ghost predicate FirstWithEmail(users: seq<User>, clean: string, i: int) {
    && 0 <= i < |users|
    && EmailIs(users[i], clean)
    && forall j :: 0 <= j < i ==> !EmailIs(users[j], clean)
  }

  /** Some stored user's email normalises to `clean`. */
  ghost predicate EmailTaken(users: seq<User>, clean: string) {
    exists i :: 0 <= i < |users| && EmailIs(users[i], clean)
  }

  /**
    `auth.signIn`: the first user whose email equals the given one after both
    are trimmed and lower-cased; "User not found" when there is none. The read
    seeds an absent users key and changes nothing else.
   */
  function SignIn(st: Store, email: string): (out: (Store, Result<User>))
    ensures out.0 == TouchUsers(st)
    ensures out.1.Ok? ==>
      exists i :: FirstWithEmail(UsersOf(st), NormalizeEmail(email), i) && out.1.value == UsersOf(st)[i]
    ensures out.1.Err? <==> !EmailTaken(UsersOf(st), NormalizeEmail(email))
    ensures out.1.Err? ==> out.1.error == UserNotFound
  {
    var users := UsersOf(st);
    var clean := NormalizeEmail(email);
    match FindByEmail(users, clean)
    case Some(i) =>
      assert FirstWithEmail(users, clean, i);
      (TouchUsers(st), Ok(users[i]))
    case None => (TouchUsers(st), Err(UserNotFound))
  }

  /** The record sign-up builds: normalised email, trimmed name, and the newcomer defaults. */
  ghost predicate Newcomer(u: User, email: string, name: string, freshId: string) {
    && u.id == freshId
    && u.email == NormalizeEmail(email)
    && u.name == Trim(name)
    && u.avatar == AvatarFor(name)
    && u.bio == Some("")
    && u.ratingTenths == NewcomerRatingTenths
    && !u.verified
    && u.currentStreak == 0
    && u.activityLog == []
  }

  /**
    `auth.signUp`: "User already exists", with the users unchanged, when a stored
    email normalises to the same address; otherwise exactly one newcomer is
    appended after the existing users. `freshId` stands for the random id.
   */
  function SignUp(st: Store, email: string, name: string, freshId: string): (out: (Store, Result<User>))
    ensures out.1.Err? <==> EmailTaken(UsersOf(st), NormalizeEmail(email))
    ensures out.1.Err? ==> out.1.error == UserAlreadyExists && out.0 == TouchUsers(st)
    ensures out.1.Ok? ==> out.0 == st.(users := Present(UsersOf(st) + [out.1.value]))
    ensures out.1.Ok? ==> Newcomer(out.1.value, email, name, freshId)
  {
    var clean := NormalizeEmail(email);
    var newUser := User(freshId, Trim(name), clean, AvatarFor(name), Some(""),
                        NewcomerRatingTenths, false, 0, []);
    var users := UsersOf(st);
    match FindByEmail(users, clean)
    case Some(i) =>
      assert EmailIs(users[i], clean);
      (TouchUsers(st), Err(UserAlreadyExists))
    case None => (st.(users := Present(users + [newUser])), Ok(newUser))
  }

  /** After signing up, signing in with the same address in any letter case or padding finds the newcomer. */
  lemma SignUpThenSignIn(st: Store, email: string, name: string, freshId: string, email': string)
    requires SignUp(st, email, name, freshId).1.Ok?
    requires NormalizeEmail(email') == NormalizeEmail(email)
    ensures SignIn(SignUp(st, email, name, freshId).0, email').1 == SignUp(st, email, name, freshId).1
  {
    var out := SignUp(st, email, name, freshId);
    var u := out.1.value;
    var users := UsersOf(st);
    var clean := NormalizeEmail(email');
    NormalizeIdempotent(email);
    assert !EmailTaken(users, clean);
    assert EmailIs(u, clean);
    OnlyLastMatches(users, u, clean);
  }

  /** When only the appended user has the address, the email lookup finds it. */
  lemma OnlyLastMatches(users: seq<User>, u: User, clean: string)
    requires !EmailTaken(users, clean)
    requires EmailIs(u, clean)
    ensures FindByEmail(users + [u], clean) == Some(|users|)
  {
    var all := users + [u];
    forall j | 0 <= j < |users|
      ensures !EmailIs(all[j], clean)
    {
      assert all[j] == users[j];
    }
    assert EmailIs(all[|users|], clean);
  }

  /** Signing up twice with the same address in any letter case fails the second time and adds nobody. */
  lemma SignUpTwiceConflicts(st: Store, email: string, name: string, freshId: string,
                             email': string, name': string, freshId': string)
    requires SignUp(st, email, name, freshId).1.Ok?
    requires NormalizeEmail(email') == NormalizeEmail(email)
    ensures var st' := SignUp(st, email, name, freshId).0;
      && SignUp(st', email', name', freshId').1 == Err(UserAlreadyExists)
      && UsersOf(SignUp(st', email', name', freshId').0) == UsersOf(st')
  {
    var out := SignUp(st, email, name, freshId);
    var users, u := UsersOf(st), out.1.value;
    var clean := NormalizeEmail(email');
    NormalizeIdempotent(email);
    assert EmailIs(u, clean);
    assert UsersOf(out.0) == users + [u];
    assert (users + [u])[|users|] == u;
    assert EmailTaken(UsersOf(out.0), clean);
  }

  /** The record `users.get` invents for an id it cannot resolve. */
  function Placeholder(id: string): User {
    SeedUser.(id := id, name := "Unknown User")
  }

  /** The id lookup of `users.get` over a given list of stored users. */
  function LookupUser(users: seq<User>, id: string): (u: User)
    ensures u.id == id
    ensures (exists i :: 0 <= i < |users| && users[i].id == id) ==>
      exists i :: 0 <= i < |users| && users[i] == u && forall j :: 0 <= j < i ==> users[j].id != id
    ensures (forall i :: 0 <= i < |users| ==> users[i].id != id) ==>
      if exists i :: 0 <= i < |MockCreators()| && MockCreators()[i].id == id
      then u in MockCreators()
      else u == Placeholder(id)
  {
    match FirstIndex(users, (v: User) => v.id == id)
    case Some(i) => users[i]
    case None =>
      match FirstIndex(MockCreators(), (v: User) => v.id == id)
      case Some(j) => MockCreators()[j]
      case None => Placeholder(id)
  }

  /**
    `users.get`: never fails, and the user returned always carries the requested
    id. It is the first stored user with that id; failing that, a creator embedded
    in the seed listings; failing that, an "Unknown User" placeholder.
   */
  function UsersGet(st: Store, id: string): (out: (Store, User))
    ensures out.0 == TouchUsers(st)
    ensures out.1.id == id
    ensures (exists i :: 0 <= i < |UsersOf(st)| && UsersOf(st)[i].id == id) ==>
      exists i :: 0 <= i < |UsersOf(st)| && UsersOf(st)[i] == out.1
        && forall j :: 0 <= j < i ==> UsersOf(st)[j].id != id
    ensures (forall i :: 0 <= i < |UsersOf(st)| ==> UsersOf(st)[i].id != id) ==>
      if exists i :: 0 <= i < |MockCreators()| && MockCreators()[i].id == id
      then out.1 in MockCreators()
      else out.1 == Placeholder(id)
  {
    (TouchUsers(st), LookupUser(UsersOf(st), id))
  }

  /** `{ ...u, ...patch }`: the fields the patch names are overwritten, the others kept. */
  function Merge(u: User, patch: UserPatch): (r: User)
    ensures r.id == patch.id.GetOr(u.id)
    ensures r.name == patch.name.GetOr(u.name)
    ensures r.email == patch.email.GetOr(u.email)
    ensures r.avatar == patch.avatar.GetOr(u.avatar)
    ensures r.bio == (if patch.bio.Some? then patch.bio else u.bio)
    ensures r.ratingTenths == patch.ratingTenths.GetOr(u.ratingTenths)
    ensures r.verified == patch.verified.GetOr(u.verified)
    ensures r.currentStreak == patch.currentStreak.GetOr(u.currentStreak)
    ensures r.activityLog == patch.activityLog.GetOr(u.activityLog)
  {
    User(
      patch.id.GetOr(u.id),
      patch.name.GetOr(u.name),
      patch.email.GetOr(u.email),
      patch.avatar.GetOr(u.avatar),
      if patch.bio.Some? then patch.bio else u.bio,
      patch.ratingTenths.GetOr(u.ratingTenths),
      patch.verified.GetOr(u.verified),
      patch.currentStreak.GetOr(u.currentStreak),
      patch.activityLog.GetOr(u.activityLog))
  }

  /** The empty patch. */
  const NoChange := UserPatch(None, None, None, None, None, None, None, None, None)

  /** Merging the empty patch changes nothing. */
  lemma MergeNoChange(u: User)
    ensures Merge(u, NoChange) == u
  {
  }

  /**
    `users.update`: "User to update not found" when no stored user has the id;
    otherwise the first such user is replaced by the merged record, the list
    keeps its length, and every other position is unchanged.
   */
  function UsersUpdate(st: Store, id: string, patch: UserPatch): (out: (Store, Result<User>))
    ensures out.1.Err? <==> forall i :: 0 <= i < |UsersOf(st)| ==> UsersOf(st)[i].id != id
    ensures out.1.Err? ==> out.1.error == UserToUpdateNotFound && out.0 == TouchUsers(st)
    ensures out.1.Ok? ==> out.0.(users := st.users) == st && out.0.users.Present?
    ensures out.1.Ok? ==> |UsersOf(out.0)| == |UsersOf(st)|
    ensures out.1.Ok? ==>
      exists i :: 0 <= i < |UsersOf(st)|
        && UsersOf(st)[i].id == id
        && (forall j :: 0 <= j < i ==> UsersOf(st)[j].id != id)
        && out.1.value == Merge(UsersOf(st)[i], patch)
        && UsersOf(out.0)[i] == out.1.value
        && forall j :: 0 <= j < |UsersOf(st)| && j != i ==> UsersOf(out.0)[j] == UsersOf(st)[j]
  {
    var users := UsersOf(st);
    match FirstIndex(users, (v: User) => v.id == id)
    case None => (TouchUsers(st), Err(UserToUpdateNotFound))
    case Some(i) =>
      var updated := Merge(users[i], patch);
      var st' := st.(users := Present(users[i := updated]));
      assert UsersOf(st') == users[i := updated];
      (st', Ok(updated))
  }

  /** A profile update that keeps the id is seen by the next lookup of that id. */
  lemma UpdateThenGet(st: Store, id: string, patch: UserPatch)
    requires patch.id.None?
    requires UsersUpdate(st, id, patch).1.Ok?
    ensures UsersGet(UsersUpdate(st, id, patch).0, id).1 == UsersUpdate(st, id, patch).1.value
  {
    var (st', res) := UsersUpdate(st, id, patch);
    var i :| 0 <= i < |UsersOf(st)|
        && UsersOf(st)[i].id == id
        && (forall j :: 0 <= j < i ==> UsersOf(st)[j].id != id)
        && res.value == Merge(UsersOf(st)[i], patch)
        && UsersOf(st')[i] == res.value
        && forall j :: 0 <= j < |UsersOf(st)| && j != i ==> UsersOf(st')[j] == UsersOf(st)[j];
    var u := UsersGet(st', id).1;
    assert UsersOf(st')[i].id == id;
    var k :| 0 <= k < |UsersOf(st')| && UsersOf(st')[k] == u
        && forall j :: 0 <= j < k ==> UsersOf(st')[j].id != id;
    assert k == i;
  }
}

=== FILE: bills.dfy ===
/**
  The bills screen: the pending and paid tabs and the outstanding total shown
  above them.
 */
module Bills {
  import opened Wrappers
  import opened Seqs
  import opened Records
  import opened Seeds
  import opened Storage
  import opened Listings

  function StatusIs(tab: BillStatus): Bill -> bool {
    (b: Bill) => b.status == tab
  }

  /** `filteredBills`: exactly the bills with the tab's status, in their stored order. */
  function FilteredBills(bills: seq<Bill>, tab: BillStatus): (r: seq<Bill>)
    ensures IsSubseq(r, bills)
    ensures forall i :: 0 <= i < |r| ==> r[i].status == tab && r[i] in bills
    ensures forall i :: 0 <= i < |bills| && bills[i].status == tab ==> bills[i] in r
    ensures forall x :: multiset(r)[x] == if x.status == tab then multiset(bills)[x] else 0
  {
    FilterIsSubseq(bills, StatusIs(tab));
    FilterMultiplicity(bills, StatusIs(tab));
    Filter(bills, StatusIs(tab))
  }

  /** The two tabs split the bills: together they hold every bill exactly once. */
  lemma TabsPartitionBills(bills: seq<Bill>)
    ensures multiset(FilteredBills(bills, Pending)) + multiset(FilteredBills(bills, Paid)) == multiset(bills)
    ensures |FilteredBills(bills, Pending)| + |FilteredBills(bills, Paid)| == |bills|
  {
    FilterPartition(bills, StatusIs(Pending), StatusIs(Paid));
  }

  function Amount(): Bill -> int {
    (b: Bill) => b.amount
  }

  /**
    `totalPending`: the amounts of the pending bills added up; never negative
    when no bill has a negative amount, and zero when nothing is pending.
   */
  function TotalPending(bills: seq<Bill>): (t: int)
    ensures (forall i :: 0 <= i < |bills| ==> bills[i].amount >= 0) ==> t >= 0
    ensures (forall i :: 0 <= i < |bills| ==> bills[i].status == Paid) ==> t == 0
  {
    PendingNonNegative(bills);
    SumOf(FilteredBills(bills, Pending), Amount())
  }

  lemma PendingNonNegative(bills: seq<Bill>)
    ensures (forall i :: 0 <= i < |bills| ==> bills[i].amount >= 0) ==> SumOf(FilteredBills(bills, Pending), Amount()) >= 0
  {
    var pending := FilteredBills(bills, Pending);
    if forall i :: 0 <= i < |bills| ==> bills[i].amount >= 0 {
      forall i | 0 <= i < |pending|
        ensures Amount()(pending[i]) >= 0
      {
        var j :| 0 <= j < |bills| && bills[j] == pending[i];
      }
      SumOfNonNegative(pending, Amount());
    }
  }

  /** The outstanding total adds up over any split of the bills. */
  lemma TotalPendingAppend(a: seq<Bill>, b: seq<Bill>)
    ensures TotalPending(a + b) == TotalPending(a) + TotalPending(b)
  {
    FilterAppend(a, b, StatusIs(Pending));
    SumOfAppend(FilteredBills(a, Pending), FilteredBills(b, Pending), Amount());
  }

  /** A single bill contributes its amount while pending and nothing once paid. */
  lemma TotalPendingSingleton(b: Bill)
    ensures TotalPending([b]) == if b.status == Pending then b.amount else 0
  {
    FilterSingleton(b, StatusIs(Pending));
    var pending := FilteredBills([b], Pending);
    if b.status == Pending {
      assert pending == [b];
      assert SumOf(pending, Amount()) == b.amount + SumOf(pending[1..], Amount());
    } else {
      assert pending == [];
    }
  }

  /** The seed bills leave 250 + 60 outstanding. */
  lemma SeedTotalPending()
    ensures TotalPending(MockBills) == 310
  {
    var bs := MockBills;
    assert Filter(bs[3..], StatusIs(Pending)) == [bs[3]];
    assert Filter(bs[2..], StatusIs(Pending)) == [bs[3]];
    assert Filter(bs[1..], StatusIs(Pending)) == [bs[3]];
    assert FilteredBills(bs, Pending) == [bs[0], bs[3]];
  }

  /** Paying the one pending bill with that id lowers the total by exactly its amount. */
  lemma PayLowersTotal(st: Store, id: string, now: string, k: nat)
    requires k < |BillsOf(st)| && BillsOf(st)[k].id == id && BillsOf(st)[k].status == Pending
    requires forall j :: 0 <= j < |BillsOf(st)| && j != k ==> BillsOf(st)[j].id != id
    ensures TotalPending(BillsOf(BillsPay(st, id, now).0)) == TotalPending(BillsOf(st)) - BillsOf(st)[k].amount
  {
    var before, after := BillsOf(st), BillsOf(BillsPay(st, id, now).0);
    FilteredSumPointChange(before, after, StatusIs(Pending), Amount(), k);
  }

  /** Paying moves the bill from the pending tab to the paid tab and leaves the tab sizes summing to the same count. */
  lemma PayMovesBetweenTabs(st: Store, id: string, now: string, k: nat)
    requires k < |BillsOf(st)| && BillsOf(st)[k].id == id && BillsOf(st)[k].status == Pending
    requires forall j :: 0 <= j < |BillsOf(st)| && j != k ==> BillsOf(st)[j].id != id
    ensures var after := BillsOf(BillsPay(st, id, now).0);
      && |FilteredBills(after, Pending)| == |FilteredBills(BillsOf(st), Pending)| - 1
      && |FilteredBills(after, Paid)| == |FilteredBills(BillsOf(st), Paid)| + 1
      && after[k] in FilteredBills(after, Paid)
  {
    var before, after := BillsOf(st), BillsOf(BillsPay(st, id, now).0);
    CountPointChange(before, after, StatusIs(Pending), k);
    CountPointChange(before, after, StatusIs(Paid), k);
  }
}

=== FILE: chats.dfy ===
/**
  `db.chats` on the local store. A conversation is identified by its sorted
  participant pair together with the listing it is about (context type and
  title), so two people have one thread per listing. Messages are kept in one
  collection in the order they were sent and are read back per conversation.
 */
module Chats {
  import opened Wrappers
  import opened Seqs
  import opened Ordering
  import opened Records
  import opened Storage
  import opened Accounts

  // -------------------------------------------------------- thread identity

  /** `c` is the thread of the participants `key` (already sorted) about the listing (`ctx`, `title`). */
  predicate SameThread(c: Chat, key: seq<string>, ctx: ContextType, title: string) {
    SortStrings(c.participants) == key && c.contextType == ctx && c.contextTitle == title
  }

  /** The first stored thread with that identity. */
  function FindThread(chats: seq<Chat>, key: seq<string>, ctx: ContextType, title: string): Option<nat> {
    FirstIndex(chats, c => SameThread(c, key, ctx, title))
  }

  /** The lookup sorts each stored participant list in place on its way through. */
  function SortParticipants(c: Chat): Chat {
    c.(participants := SortStrings(c.participants))
  }

  /** The stored threads as the lookup saves them back. */
  function SortAll(chats: seq<Chat>): (r: seq<Chat>)
    ensures |r| == |chats|
    ensures forall j :: 0 <= j < |chats| ==> r[j] == SortParticipants(chats[j])
  {
    seq(|chats|, j requires 0 <= j < |chats| => SortParticipants(chats[j]))
  }

  /** The threads saved when none matched: the stored ones sorted, then the new one. */
  function WithNewThread(chats: seq<Chat>, made: Chat): (r: seq<Chat>)
    requires Sorted(made.participants)
    ensures |r| == |chats| + 1 && r[|chats|] == made
    ensures forall j :: 0 <= j < |chats| ==> r[j] == SortParticipants(chats[j])
    ensures SameThread(r[|chats|], made.participants, made.contextType, made.contextTitle)
  {
    SortSortedIsIdentity(made.participants);
    SortAll(chats) + [made]
  }

  /**
    `chats.getOrCreate`: the id of the first stored thread whose sorted
    participants and context match, the store left as it was; or else a new
    thread with the sorted pair, the random id `freshId` and creation time
    `now`, appended after the stored threads (whose participant lists were
    sorted during the search and are saved that way).
   */
  function GetOrCreate(st: Store, me: string, other: string, ctx: ContextType, title: string,
                       freshId: string, now: string): (out: (Store, string))
    ensures var key := SortStrings([me, other]);
      FindThread(ChatsOf(st), key, ctx, title).Some? ==>
        && out.0 == TouchChats(st)
        && out.1 == ChatsOf(st)[FindThread(ChatsOf(st), key, ctx, title).value].id
    ensures var key := SortStrings([me, other]);
      FindThread(ChatsOf(st), key, ctx, title).None? ==>
        && out.0 == st.(chats := Present(ChatsOf(out.0)))
        && out.1 == freshId
        && |ChatsOf(out.0)| == |ChatsOf(st)| + 1
        && ChatsOf(out.0)[|ChatsOf(st)|] == Chat(freshId, key, ctx, title, now)
        && Sorted(key) && multiset(key) == multiset{me, other}
        && forall j :: 0 <= j < |ChatsOf(st)| ==> ChatsOf(out.0)[j] == SortParticipants(ChatsOf(st)[j])
    ensures exists j :: (0 <= j < |ChatsOf(out.0)|
      && ChatsOf(out.0)[j].id == out.1
      && SameThread(ChatsOf(out.0)[j], SortStrings([me, other]), ctx, title))
  {
    var key := SortStrings([me, other]);
    var chats := ChatsOf(st);
    match FindThread(chats, key, ctx, title)
    case Some(i) =>
      assert ChatsOf(TouchChats(st)) == chats;
      assert SameThread(chats[i], key, ctx, title);
      (TouchChats(st), chats[i].id)
    case None =>
      var chats' := WithNewThread(chats, Chat(freshId, key, ctx, title, now));
      var st' := st.(chats := Present(chats'));
      assert ChatsOf(st') == chats';
      assert multiset([me, other]) == multiset{me, other};
      (st', freshId)
  }

  /**
    Opening the thread from the other side finds the same one:
    `getOrCreate(A, B, t, x)` then `getOrCreate(B, A, t, x)` answer the same id,
    and the second call adds no thread and changes nothing.
   */
  lemma GetOrCreateSymmetric(st: Store, a: string, b: string, ctx: ContextType, title: string,
                             id1: string, id2: string, now1: string, now2: string)
    ensures var first := GetOrCreate(st, a, b, ctx, title, id1, now1);
      GetOrCreate(first.0, b, a, ctx, title, id2, now2) == first
  {
    var key := SortStrings([a, b]);
    SortPairSymmetric(a, b);
    assert SortStrings([b, a]) == key;
    var chats := ChatsOf(st);
    var first := GetOrCreate(st, a, b, ctx, title, id1, now1);
    var after := ChatsOf(first.0);
    assert first.0.chats.Present?;
    match FindThread(chats, key, ctx, title)
    case Some(i) =>
      assert after == chats;
    case None =>
      SortSortedIsIdentity(key);
      assert SameThread(after[|chats|], key, ctx, title);
      NewThreadFoundNext(chats, after, key, ctx, title);
  }

  /** A thread appended because none matched is the first match of the next lookup. */
  lemma NewThreadFoundNext(chats: seq<Chat>, after: seq<Chat>, key: seq<string>, ctx: ContextType, title: string)
    requires FindThread(chats, key, ctx, title).None?
    requires |after| == |chats| + 1 && SameThread(after[|chats|], key, ctx, title)
    requires forall j :: 0 <= j < |chats| ==> after[j] == SortParticipants(chats[j])
    ensures FindThread(after, key, ctx, title) == Some(|chats|)
  {
    forall j | 0 <= j < |chats|
      ensures !SameThread(after[j], key, ctx, title)
    {
      SortStringsIdempotent(chats[j].participants);
      assert !SameThread(chats[j], key, ctx, title);
    }
  }

  // --------------------------------------------------------------- messages

  /** The stored messages of one conversation, in the order they were sent. */
  function ThreadMessages(msgs: seq<Message>, chatId: string): seq<Message> {
    Filter(msgs, InChat(chatId))
  }

  /** The message belongs to conversation `chatId`. */
  function InChat(chatId: string): Message -> bool {
    (m: Message) => m.chatId == chatId
  }

  /** Appending one message extends exactly the thread it belongs to. */
  lemma ThreadAppend(msgs: seq<Message>, m: Message, chatId: string)
    ensures ThreadMessages(msgs + [m], chatId)
         == ThreadMessages(msgs, chatId) + (if m.chatId == chatId then [m] else [])
  {
    FilterAppend(msgs, [m], InChat(chatId));
    FilterSingleton(m, InChat(chatId));
  }

  /** Sequences with the same multiset have the same elements. */
  lemma SameElements<T>(a: seq<T>, b: seq<T>)
    requires multiset(a) == multiset(b)
    ensures forall x :: x in a <==> x in b
  {
    forall x ensures x in a <==> x in b {
      assert x in a <==> x in multiset(a);
      assert x in b <==> x in multiset(b);
    }
  }

  /** Non-decreasing timestamps. */
  predicate Chronological(ms: seq<Message>) {
    forall i :: 0 < i < |ms| ==> ms[i - 1].timestamp <= ms[i].timestamp
  }

  /** Places `m` in front of the first message that is not earlier, so equal timestamps keep their order. */
  function InsertByTime(m: Message, s: seq<Message>): (r: seq<Message>)
    requires Chronological(s)
    ensures Chronological(r)
    ensures multiset(r) == multiset(s) + multiset{m}
    ensures r[0] == m || (|s| > 0 && r[0] == s[0])
  {
    if |s| == 0 then [m]
    else if m.timestamp <= s[0].timestamp then [m] + s
    else
      var tail := InsertByTime(m, s[1..]);
      assert multiset(s) == multiset{s[0]} + multiset(s[1..]) by {
        assert s == [s[0]] + s[1..];
      }
      [s[0]] + tail
  }

  /** The ascending sort by timestamp of `getMessages`. */
  function SortByTime(ms: seq<Message>): (r: seq<Message>)
    ensures Chronological(r)
    ensures multiset(r) == multiset(ms)
    ensures |r| == |ms|
  {
    if |ms| == 0 then []
    else
      assert multiset(ms) == multiset{ms[0]} + multiset(ms[1..]) by {
        assert ms == [ms[0]] + ms[1..];
      }
      var r := InsertByTime(ms[0], SortByTime(ms[1..]));
      assert |multiset(r)| == |ms|;
      r
  }

  /**
    `chats.getMessages`: exactly the stored messages of that conversation, each
    once, in ascending timestamp order.
   */
  function GetMessages(st: Store, chatId: string): (out: (Store, seq<Message>))
    ensures out.0 == TouchMessages(st)
    ensures Chronological(out.1)
    ensures multiset(out.1) == multiset(ThreadMessages(MessagesOf(st), chatId))
    ensures forall i :: 0 <= i < |out.1| ==> out.1[i].chatId == chatId && out.1[i] in MessagesOf(st)
    ensures forall i :: 0 <= i < |MessagesOf(st)| && MessagesOf(st)[i].chatId == chatId ==> MessagesOf(st)[i] in out.1
  {
    var thread := ThreadMessages(MessagesOf(st), chatId);
    var r := SortByTime(thread);
    SameElements(r, thread);
    forall i | 0 <= i < |r|
      ensures r[i].chatId == chatId && r[i] in MessagesOf(st)
    {
      assert r[i] in thread;
      var k :| 0 <= k < |thread| && thread[k] == r[i];
      assert InChat(chatId)(thread[k]);
    }
    (TouchMessages(st), r)
  }

  /**
    `chats.sendMessage`: a message with the random id `freshId` and timestamp
    `now` is appended after every stored message.
   */
  function SendMessage(st: Store, chatId: string, senderId: string, content: string,
                       freshId: string, now: nat): (out: (Store, Message))
    ensures MessagesOf(out.0) == MessagesOf(st) + [out.1]
    ensures out.0 == st.(messages := Present(MessagesOf(out.0)))
    ensures out.1 == Message(freshId, chatId, senderId, content, now)
  {
    var msg := Message(freshId, chatId, senderId, content, now);
    var st' := st.(messages := Present(MessagesOf(st) + [msg]));
    assert MessagesOf(st') == MessagesOf(st) + [msg];
    (st', msg)
  }

  /** Sorting a sequence with one message at least as late as all others appended puts it last. */
  lemma {:induction false} SortByTimeAppendLatest(s: seq<Message>, m: Message)
    requires forall i :: 0 <= i < |s| ==> s[i].timestamp <= m.timestamp
    ensures SortByTime(s + [m]) == SortByTime(s) + [m]
    decreases |s|
  {
    if |s| == 0 {
      assert s + [m] == [m];
    } else {
      assert (s + [m])[1..] == s[1..] + [m];
      SortByTimeAppendLatest(s[1..], m);
      InsertBeforeLatest(s[0], SortByTime(s[1..]), m);
    }
  }

  /** Inserting an element no later than a trailing `m` leaves `m` at the end. */
  lemma {:induction false} InsertBeforeLatest(x: Message, s: seq<Message>, m: Message)
    requires Chronological(s + [m]) && Chronological(s)
    requires x.timestamp <= m.timestamp
    ensures InsertByTime(x, s + [m]) == InsertByTime(x, s) + [m]
    decreases |s|
  {
    if |s| == 0 {
      assert s + [m] == [m];
    } else {
      var t := s + [m];
      assert t[0] == s[0];
      if x.timestamp > s[0].timestamp {
        assert t[1..] == s[1..] + [m];
        assert Chronological(s[1..] + [m]);
        InsertBeforeLatest(x, s[1..], m);
      }
    }
  }

  /**
    A message sent with a clock reading no earlier than the conversation's
    stored messages is read back last, after the conversation as it was.
   */
  lemma SendThenGetMessages(st: Store, chatId: string, senderId: string, content: string,
                            freshId: string, now: nat)
    requires forall i :: 0 <= i < |MessagesOf(st)| && MessagesOf(st)[i].chatId == chatId ==>
      MessagesOf(st)[i].timestamp <= now
    ensures var sent := SendMessage(st, chatId, senderId, content, freshId, now);
      GetMessages(sent.0, chatId).1 == GetMessages(st, chatId).1 + [sent.1]
  {
    var sent := SendMessage(st, chatId, senderId, content, freshId, now);
    var msgs := MessagesOf(st);
    ThreadAppend(msgs, sent.1, chatId);
    var thread := ThreadMessages(msgs, chatId);
    assert forall i :: 0 <= i < |thread| ==> thread[i].timestamp <= now;
    SortByTimeAppendLatest(thread, sent.1);
  }

  /** Sending to one conversation leaves what every other conversation reads unchanged. */
  lemma SendLeavesOtherThreads(st: Store, chatId: string, senderId: string, content: string,
                               freshId: string, now: nat, otherChat: string)
    requires otherChat != chatId
    ensures var sent := SendMessage(st, chatId, senderId, content, freshId, now);
      GetMessages(sent.0, otherChat).1 == GetMessages(st, otherChat).1
  {
    var sent := SendMessage(st, chatId, senderId, content, freshId, now);
    ThreadAppend(MessagesOf(st), sent.1, otherChat);
    assert ThreadMessages(MessagesOf(sent.0), otherChat) == ThreadMessages(MessagesOf(st), otherChat);
  }

  // ------------------------------------------------------------ inbox view

  /** `ms[i]` is what a stable newest-first sort puts in front: a latest message, the earliest stored among equals. */
  ghost predicate LatestAt(ms: seq<Message>, i: int) {
    && 0 <= i < |ms|
    && (forall j :: 0 <= j < |ms| ==> ms[j].timestamp <= ms[i].timestamp)
    && (forall j :: 0 <= j < i ==> ms[j].timestamp < ms[i].timestamp)
  }

  /** The first element of the messages sorted newest first, if there are any. */
  function Latest(ms: seq<Message>): (r: Option<Message>)
    ensures r.None? <==> |ms| == 0
    ensures r.Some? ==> exists i :: LatestAt(ms, i) && ms[i] == r.value
  {
    if |ms| == 0 then None
    else match Latest(ms[1..])
      case None =>
        assert LatestAt(ms, 0);
        Some(ms[0])
      case Some(m) =>
        if m.timestamp > ms[0].timestamp then
          assert exists k :: LatestAt(ms, k) && ms[k] == m by {
            var i :| LatestAt(ms[1..], i) && ms[1..][i] == m;
            assert LatestAt(ms, i + 1);
          }
          Some(m)
        else
          assert forall j :: 1 <= j < |ms| ==> ms[j].timestamp <= ms[0].timestamp by {
            var i :| LatestAt(ms[1..], i) && ms[1..][i] == m;
            assert forall j :: 1 <= j < |ms| ==> ms[1..][j - 1] == ms[j];
          }
          assert LatestAt(ms, 0);
          Some(ms[0])
  }

  /** A conversation as the inbox shows it: the other person and the newest message. */
  datatype ChatView = ChatView(chat: Chat, lastMessage: Option<Message>, otherUser: User)

  /** The conversations `me` takes part in, in stored order. */
  function MyChats(chats: seq<Chat>, me: string): seq<Chat> {
    Filter(chats, (c: Chat) => me in c.participants)
  }

  /** `ps[i]` is not `me`, and every participant before it is. */
  ghost predicate FirstOtherAt(ps: seq<string>, me: string, i: int) {
    && 0 <= i < |ps|
    && ps[i] != me
    && forall j :: 0 <= j < i ==> ps[j] == me
  }

  /** The first participant who is not `me`. */
  function OtherParticipant(c: Chat, me: string): (r: Option<string>)
    ensures r.Some? ==> r.value in c.participants && r.value != me
    ensures r.None? ==> forall p :: p in c.participants ==> p == me
    ensures r.Some? ==> exists i :: FirstOtherAt(c.participants, me, i) && c.participants[i] == r.value
  {
    match FirstIndex(c.participants, (p: string) => p != me)
    case Some(i) => Some(c.participants[i])
    case None => None
  }

  /**
    The other person of a conversation through `users.get`. With no other
    participant the lookup has no id to use and yields the placeholder with an
    empty id.
   */
  function OtherUser(users: seq<User>, c: Chat, me: string): User {
    match OtherParticipant(c, me)
    case Some(o) => LookupUser(users, o)
    case None => Placeholder("")
  }

  /**
    `chats.list`: the conversations that include `me`, in stored order, each with
    its newest message (none when it has no messages) and the other participant.
   */
  function ChatsList(st: Store, me: string): (out: (Store, seq<ChatView>))
    ensures |out.1| == |MyChats(ChatsOf(st), me)|
    ensures forall i :: 0 <= i < |out.1| ==>
      out.1[i].chat == MyChats(ChatsOf(st), me)[i] && me in out.1[i].chat.participants
    ensures forall c :: c in ChatsOf(st) && me in c.participants ==> exists i :: 0 <= i < |out.1| && out.1[i].chat == c
    ensures forall i :: 0 <= i < |out.1| ==>
      (out.1[i].lastMessage.None? <==> |ThreadMessages(MessagesOf(st), out.1[i].chat.id)| == 0)
    ensures forall i :: 0 <= i < |out.1| && out.1[i].lastMessage.Some? ==>
      && out.1[i].lastMessage.value in MessagesOf(st)
      && out.1[i].lastMessage.value.chatId == out.1[i].chat.id
      && forall m :: m in MessagesOf(st) && m.chatId == out.1[i].chat.id ==>
           m.timestamp <= out.1[i].lastMessage.value.timestamp
    ensures forall i :: 0 <= i < |out.1| && out.1[i].lastMessage.Some? ==>
      exists k :: LatestAt(ThreadMessages(MessagesOf(st), out.1[i].chat.id), k)
        && ThreadMessages(MessagesOf(st), out.1[i].chat.id)[k] == out.1[i].lastMessage.value
    ensures forall i :: 0 <= i < |out.1| && OtherParticipant(out.1[i].chat, me).Some? ==>
      out.1[i].otherUser == UsersGet(st, OtherParticipant(out.1[i].chat, me).value).1
    ensures forall i :: 0 <= i < |out.1| && OtherParticipant(out.1[i].chat, me).None? ==>
      out.1[i].otherUser == Placeholder("")
    ensures var base := TouchMessages(TouchChats(st));
      out.0 == if |out.1| > 0 then TouchUsers(base) else base
  {
    var mine := MyChats(ChatsOf(st), me);
    var msgs := MessagesOf(st);
    var users := UsersOf(st);
    var views := seq(|mine|, i requires 0 <= i < |mine| =>
      ChatView(mine[i], Latest(ThreadMessages(msgs, mine[i].id)), OtherUser(users, mine[i], me)));
    forall i | 0 <= i < |views| && views[i].lastMessage.Some?
      ensures views[i].lastMessage.value in msgs
      ensures views[i].lastMessage.value.chatId == views[i].chat.id
      ensures forall m :: m in msgs && m.chatId == views[i].chat.id ==>
        m.timestamp <= views[i].lastMessage.value.timestamp
    {
      var thread := ThreadMessages(msgs, mine[i].id);
      var k :| LatestAt(thread, k) && thread[k] == views[i].lastMessage.value;
      forall m | m in msgs && m.chatId == views[i].chat.id
        ensures m.timestamp <= views[i].lastMessage.value.timestamp
      {
        var j :| 0 <= j < |msgs| && msgs[j] == m;
        var q :| 0 <= q < |thread| && thread[q] == m;
      }
    }
    var base := TouchMessages(TouchChats(st));
    (if |mine| > 0 then TouchUsers(base) else base, views)
  }
}

=== FILE: dashboard.dfy ===
/**
  The dashboard's three counters: rides with a seat to offer, items available
  to rent, and open delivery requests.
 */
module Dashboard {
  import opened Seqs
  import opened Records
  import opened Storage
  import opened Listings

  datatype Stats = Stats(rides: nat, items: nat, tasks: nat)

  /** A ride offered with a seat left. */
  function RideCounts(): Ride -> bool {
    (r: Ride) => r.mode == Offer && r.seatsAvailable > 0
  }

  /** An item offered and not yet rented. */
  function ItemCounts(): RentalItem -> bool {
    (i: RentalItem) => i.mode == Offer && i.status == Available
  }

  /** A delivery request nobody has taken. */
  function TaskCounts(): DeliveryTask -> bool {
    (t: DeliveryTask) => t.mode == Request && t.status == Open
  }

  /**
    `fetchStats`: each counter is at most the size of its collection, and is
    zero exactly when nothing in the collection qualifies.
   */
  function ComputeStats(rides: seq<Ride>, items: seq<RentalItem>, tasks: seq<DeliveryTask>): (s: Stats)
    ensures s.rides <= |rides| && s.items <= |items| && s.tasks <= |tasks|
    ensures s.rides == 0 <==> forall i :: 0 <= i < |rides| ==> !(rides[i].mode == Offer && rides[i].seatsAvailable > 0)
    ensures s.items == 0 <==> forall i :: 0 <= i < |items| ==> !(items[i].mode == Offer && items[i].status == Available)
    ensures s.tasks == 0 <==> forall i :: 0 <= i < |tasks| ==> !(tasks[i].mode == Request && tasks[i].status == Open)
  {
    Stats(Count(rides, RideCounts()), Count(items, ItemCounts()), Count(tasks, TaskCounts()))
  }

  /** Each counter adds up over any split of its collection. */
  lemma StatsAppend(rides: seq<Ride>, items: seq<RentalItem>, tasks: seq<DeliveryTask>,
                    rides': seq<Ride>, items': seq<RentalItem>, tasks': seq<DeliveryTask>)
    ensures var whole := ComputeStats(rides + rides', items + items', tasks + tasks');
      var front, back := ComputeStats(rides, items, tasks), ComputeStats(rides', items', tasks');
      && whole.rides == front.rides + back.rides
      && whole.items == front.items + back.items
      && whole.tasks == front.tasks + back.tasks
  {
    CountAppend(rides, rides', RideCounts());
    CountAppend(items, items', ItemCounts());
    CountAppend(tasks, tasks', TaskCounts());
  }

  /** A single entry counts one exactly when it qualifies, so with `StatsAppend` every counter is the number of qualifying entries. */
  lemma StatsSingleton(r: Ride, i: RentalItem, t: DeliveryTask)
    ensures ComputeStats([r], [i], [t]) == Stats(
      if r.mode == Offer && r.seatsAvailable > 0 then 1 else 0,
      if i.mode == Offer && i.status == Available then 1 else 0,
      if t.mode == Request && t.status == Open then 1 else 0)
  {
  }

  /** The counters over what the three reads return. */
  function StatsOf(st: Store): Stats {
    ComputeStats(RidesOf(st), ItemsOf(st), TasksOf(st))
  }

  /** Booking the one item with that id lowers the items counter by one if it was counted, and touches no other counter. */
  lemma BookLowersItemsStat(st: Store, id: string, k: nat)
    requires k < |ItemsOf(st)| && ItemsOf(st)[k].id == id
    requires forall j :: 0 <= j < |ItemsOf(st)| && j != k ==> ItemsOf(st)[j].id != id
    ensures var before, after := StatsOf(st), StatsOf(ItemsBook(st, id).0);
      && after.items == before.items - (if ItemsOf(st)[k].mode == Offer && ItemsOf(st)[k].status == Available then 1 else 0)
      && after.rides == before.rides && after.tasks == before.tasks
  {
    var after := ItemsBook(st, id).0;
    assert RidesOf(after) == RidesOf(st) && TasksOf(after) == TasksOf(st);
    CountPointChange(ItemsOf(st), ItemsOf(after), ItemCounts(), k);
  }

  /** Joining the one ride with that id lowers the rides counter exactly when it took an offered ride's last seat. */
  lemma JoinLowersRidesStat(st: Store, id: string, k: nat)
    requires k < |RidesOf(st)| && RidesOf(st)[k].id == id
    requires forall j :: 0 <= j < |RidesOf(st)| && j != k ==> RidesOf(st)[j].id != id
    ensures var before, after := StatsOf(st), StatsOf(RidesJoin(st, id).0);
      && after.rides == before.rides - (if RidesOf(st)[k].mode == Offer && RidesOf(st)[k].seatsAvailable == 1 then 1 else 0)
      && after.items == before.items && after.tasks == before.tasks
  {
    var after := RidesJoin(st, id).0;
    assert ItemsOf(after) == ItemsOf(st) && TasksOf(after) == TasksOf(st);
    CountPointChange(RidesOf(st), RidesOf(after), RideCounts(), k);
  }

  /** Accepting the one task with that id lowers the tasks counter by one if it was an open request. */
  lemma AcceptLowersTasksStat(st: Store, id: string, k: nat)
    requires k < |TasksOf(st)| && TasksOf(st)[k].id == id
    requires forall j :: 0 <= j < |TasksOf(st)| && j != k ==> TasksOf(st)[j].id != id
    ensures var before, after := StatsOf(st), StatsOf(TasksAccept(st, id).0);
      && after.tasks == before.tasks - (if TasksOf(st)[k].mode == Request && TasksOf(st)[k].status == Open then 1 else 0)
      && after.rides == before.rides && after.items == before.items
  {
    var after := TasksAccept(st, id).0;
    assert RidesOf(after) == RidesOf(st) && ItemsOf(after) == ItemsOf(st);
    CountPointChange(TasksOf(st), TasksOf(after), TaskCounts(), k);
  }
}

=== FILE: delivery.dfy ===
/**
  The delivery screen: the list filter by mode, the deadline a task is posted
  with, and when the accept button is enabled.
 */
module Delivery {
  import opened Seqs
  import opened Records
  import opened Storage
  import opened Listings

  function TaskModeIs(browse: Mode): DeliveryTask -> bool {
    (t: DeliveryTask) => t.mode == browse
  }

  /** `filteredTasks`: exactly the tasks of the browsed mode, in their stored order. */
  function FilteredTasks(tasks: seq<DeliveryTask>, browse: Mode): (r: seq<DeliveryTask>)
    ensures IsSubseq(r, tasks)
    ensures forall i :: 0 <= i < |r| ==> r[i].mode == browse
    ensures forall i :: 0 <= i < |tasks| && tasks[i].mode == browse ==> tasks[i] in r
    ensures forall x :: multiset(r)[x] == if x.mode == browse then multiset(tasks)[x] else 0
  {
    FilterIsSubseq(tasks, TaskModeIs(browse));
    FilterMultiplicity(tasks, TaskModeIs(browse));
    Filter(tasks, TaskModeIs(browse))
  }

  /** The request and offer views split the tasks: together they hold every task exactly once. */
  lemma ModesPartitionTasks(tasks: seq<DeliveryTask>)
    ensures multiset(FilteredTasks(tasks, Request)) + multiset(FilteredTasks(tasks, Offer)) == multiset(tasks)
    ensures |FilteredTasks(tasks, Request)| + |FilteredTasks(tasks, Offer)| == |tasks|
  {
    FilterPartition(tasks, TaskModeIs(Request), TaskModeIs(Offer));
  }

  /** The posting form; the amount is already a number. */
  datatype TaskForm = TaskForm(
    title: string,
    description: string,
    pickup: string,
    dropoff: string,
    amount: int,
    deadline: string,
    mode: Mode)

  const DefaultDeadline := "ASAP"

  /** `handleCreateTask`: the draft posted, the deadline falling back to "ASAP" when left empty. */
  function TaskDraftOfForm(f: TaskForm): (d: TaskDraft)
    ensures d.deadline != ""
    ensures f.deadline != "" ==> d.deadline == f.deadline
    ensures f.deadline == "" ==> d.deadline == DefaultDeadline
    ensures d.(deadline := f.deadline) == TaskDraft(f.title, f.description, f.pickup, f.dropoff, f.amount, f.deadline, f.mode)
  {
    TaskDraft(f.title, f.description, f.pickup, f.dropoff, f.amount,
              if f.deadline == "" then DefaultDeadline else f.deadline, f.mode)
  }

  /** A task posted from the form is listed first, open, and always has a deadline. */
  lemma PostedTaskIsOpen(st: Store, f: TaskForm, creator: User, freshId: string)
    ensures var out := TasksCreate(st, TaskDraftOfForm(f), creator, freshId);
      && TasksOf(out.0)[0] == out.1
      && out.1.status == Open && out.1.deadline != ""
      && (f.deadline == "" ==> out.1.deadline == DefaultDeadline)
      && AcceptEnabled(out.1)
  {
  }

  /** The accept button is enabled only for open tasks. */
  predicate AcceptEnabled(t: DeliveryTask) {
    t.status == Open
  }

  /**
    After `tasks.accept(id)` no task with that id can be accepted again, and
    every other task's button is as it was.
   */
  lemma AcceptDisablesButton(st: Store, id: string)
    ensures var after := TasksOf(TasksAccept(st, id).0);
      && |after| == |TasksOf(st)|
      && (forall k :: 0 <= k < |after| && after[k].id == id ==> !AcceptEnabled(after[k]))
      && (forall k :: 0 <= k < |after| && after[k].id != id ==> AcceptEnabled(after[k]) == AcceptEnabled(TasksOf(st)[k]))
  {
  }
}

=== FILE: listings.dfy ===
/**
  `db.rides`, `db.items`, `db.tasks` and `db.bills` on the local store: the
  reads, the creates (which put the new record in front) and the transitions
  join, book, accept and pay.

  None of the transitions checks the record's state: joining a full ride
  changes nothing yet reports success, and booking or accepting overwrites
  whatever status the record had. Each reports `true` in every case.
 */
module Listings {
  import opened Wrappers
  import opened Text
  import opened Seqs
  import opened Records
  import opened Seeds
  import opened Storage

  // ---------------------------------------------------------------- reads

  /** `rides.getAll`: the saved rides, or the seed rides (now saved) for a fresh store. */
  function RidesGetAll(st: Store): (out: (Store, seq<Ride>))
    ensures out.0 == st.(rides := Present(out.1))
    ensures st.rides.Present? ==> out.1 == st.rides.records
    ensures st.rides.Absent? ==> out.1 == MockRides
  {
    (st.(rides := Present(RidesOf(st))), RidesOf(st))
  }

  /** `items.getAll`: the saved items, or the seed items (now saved) for a fresh store. */
  function ItemsGetAll(st: Store): (out: (Store, seq<RentalItem>))
    ensures out.0 == st.(items := Present(out.1))
    ensures st.items.Present? ==> out.1 == st.items.records
    ensures st.items.Absent? ==> out.1 == MockItems
  {
    (st.(items := Present(ItemsOf(st))), ItemsOf(st))
  }

  /** `tasks.getAll`: the saved tasks, or the seed tasks (now saved) for a fresh store. */
  function TasksGetAll(st: Store): (out: (Store, seq<DeliveryTask>))
    ensures out.0 == st.(tasks := Present(out.1))
    ensures st.tasks.Present? ==> out.1 == st.tasks.records
    ensures st.tasks.Absent? ==> out.1 == MockTasks
  {
    (st.(tasks := Present(TasksOf(st))), TasksOf(st))
  }

  /**
    `bills.getAll(userId)`: every saved bill (or the seed bills, now saved),
    whoever asks; the user id plays no part.
   */
  function BillsGetAll(st: Store, userId: string): (out: (Store, seq<Bill>))
    ensures out.0 == st.(bills := Present(out.1))
    ensures st.bills.Present? ==> out.1 == st.bills.records
    ensures st.bills.Absent? ==> out.1 == MockBills
  {
    (st.(bills := Present(BillsOf(st))), BillsOf(st))
  }

  /** Any two users see the same bills. */
  lemma BillsIgnoreUser(st: Store, u: string, v: string)
    ensures BillsGetAll(st, u) == BillsGetAll(st, v)
  {
  }

  // -------------------------------------------------------------- creates

  /** `rides.create`: a ride built from the draft, the random id and the creator as driver, put first. */
  function RidesCreate(st: Store, draft: RideDraft, creator: User, freshId: string): (out: (Store, Ride))
    ensures RidesOf(out.0) == [out.1] + RidesOf(st)
    ensures out.0 == st.(rides := Present(RidesOf(out.0)))
    ensures out.1.id == freshId && out.1.driver == creator
    ensures RideDraftOf(out.1) == draft
  {
    var ride := Ride(freshId, creator, draft.origin, draft.destination, draft.date, draft.time,
                     draft.seatsAvailable, draft.costPerPerson, draft.vehicle, draft.mode);
    var st' := st.(rides := Present([ride] + RidesOf(st)));
    assert RidesOf(st') == [ride] + RidesOf(st);
    (st', ride)
  }

  /** The fields of a ride a draft supplies. */
  function RideDraftOf(r: Ride): RideDraft {
    RideDraft(r.origin, r.destination, r.date, r.time, r.seatsAvailable, r.costPerPerson, r.vehicle, r.mode)
  }

  /** The picture a new item gets, seeded by its title with whitespace runs dashed and lower-cased. */
  function ImageUrl(title: string): (url: string)
    ensures |url| == |ImagePrefix| + |ImageSeed(title)| + |ImageSuffix|
    ensures url[..|ImagePrefix|] == ImagePrefix && url[|url| - |ImageSuffix|..] == ImageSuffix
    ensures url[|ImagePrefix|..|url| - |ImageSuffix|] == ImageSeed(title)
    ensures NoSpace(url[|ImagePrefix|..|url| - |ImageSuffix|])
  {
    var url := ImagePrefix + ImageSeed(title) + ImageSuffix;
    assert url[|ImagePrefix|..|url| - |ImageSuffix|] == ImageSeed(title);
    url
  }

  const ImagePrefix := "https://picsum.photos/seed/"
  const ImageSuffix := "/200/200"

  /** `title.replace(/\s+/g, '-').toLowerCase()`: a seed with neither whitespace nor capitals. */
  function ImageSeed(title: string): (seed: string)
    ensures NoSpace(seed) && NoUpper(seed)
    ensures |seed| <= |title|
    ensures NoSpace(title) && NoUpper(title) ==> seed == title
  {
    ToLower(DashRuns(title))
  }

  /** A word of the title without whitespace reaches the seed lower-cased and unchanged otherwise. */
  lemma ImageSeedKeepsWord(w: string, rest: string)
    requires NoSpace(w)
    ensures ImageSeed(w + rest) == ToLower(w) + ImageSeed(rest)
  {
    DashRunsKeepsWord(w, rest);
    ToLowerAppend(w, DashRuns(rest));
  }

  /** Each maximal whitespace run of the title becomes a single '-' in the seed. */
  lemma ImageSeedDashesRun(ws: string, rest: string)
    requires |ws| > 0 && forall k :: 0 <= k < |ws| ==> IsSpace(ws[k])
    requires |rest| > 0 ==> !IsSpace(rest[0])
    ensures ImageSeed(ws + rest) == "-" + ImageSeed(rest)
  {
    DashRunsCollapsesRun(ws, rest);
    ToLowerAppend("-", DashRuns(rest));
  }

  /**
    `items.create`: an item built from the draft, the random id, the creator as
    owner, status available and the title-seeded picture, put first.
   */
  function ItemsCreate(st: Store, draft: ItemDraft, creator: User, freshId: string): (out: (Store, RentalItem))
    ensures ItemsOf(out.0) == [out.1] + ItemsOf(st)
    ensures out.0 == st.(items := Present(ItemsOf(out.0)))
    ensures out.1.id == freshId && out.1.owner == creator
    ensures out.1.status == Available && out.1.image == ImageUrl(draft.title)
    ensures ItemDraftOf(out.1) == draft
  {
    var item := RentalItem(freshId, creator, draft.title, draft.category, draft.price, draft.rateUnit,
                           ImageUrl(draft.title), Available, draft.mode);
    var st' := st.(items := Present([item] + ItemsOf(st)));
    assert ItemsOf(st') == [item] + ItemsOf(st);
    (st', item)
  }

  /** The fields of an item a draft supplies. */
  function ItemDraftOf(i: RentalItem): ItemDraft {
    ItemDraft(i.title, i.category, i.price, i.rateUnit, i.mode)
  }

  /** `tasks.create`: a task built from the draft, the random id, the creator as requester and status open, put first. */
  function TasksCreate(st: Store, draft: TaskDraft, creator: User, freshId: string): (out: (Store, DeliveryTask))
    ensures TasksOf(out.0) == [out.1] + TasksOf(st)
    ensures out.0 == st.(tasks := Present(TasksOf(out.0)))
    ensures out.1.id == freshId && out.1.requester == creator && out.1.status == Open
    ensures TaskDraftOf(out.1) == draft
  {
    var task := DeliveryTask(freshId, creator, draft.title, draft.description, draft.pickup, draft.dropoff,
                             draft.offerAmount, Open, draft.deadline, draft.mode);
    var st' := st.(tasks := Present([task] + TasksOf(st)));
    assert TasksOf(st') == [task] + TasksOf(st);
    (st', task)
  }

  /** The fields of a task a draft supplies. */
  function TaskDraftOf(t: DeliveryTask): TaskDraft {
    TaskDraft(t.title, t.description, t.pickup, t.dropoff, t.offerAmount, t.deadline, t.mode)
  }

  /** A ride just created is the first one the next read returns, so the lists of every screen show it. */
  lemma CreatedRideListedFirst(st: Store, draft: RideDraft, creator: User, freshId: string)
    ensures var out := RidesCreate(st, draft, creator, freshId);
      RidesGetAll(out.0).1 == [out.1] + RidesGetAll(st).1
  {
  }

  // ---------------------------------------------------------- transitions

  /** Whether `rides.join(id)` takes a seat from `r`. */
  predicate TakesSeat(r: Ride, id: string) {
    r.id == id && r.seatsAvailable > 0
  }

  function TakeSeat(r: Ride): Ride {
    r.(seatsAvailable := r.seatsAvailable - 1)
  }

  /**
    `rides.join`: every ride with the id and a free seat loses exactly one seat;
    a ride without a free seat and every ride with another id stay as they are;
    a seat count that was not negative does not become negative; and the answer
    is `true` whatever happened.
   */
  function RidesJoin(st: Store, id: string): (out: (Store, bool))
    ensures out.1
    ensures out.0 == st.(rides := Present(RidesOf(out.0)))
    ensures |RidesOf(out.0)| == |RidesOf(st)|
    ensures forall i :: 0 <= i < |RidesOf(st)| && RidesOf(st)[i].id != id ==>
      RidesOf(out.0)[i] == RidesOf(st)[i]
    ensures forall i :: 0 <= i < |RidesOf(st)| && RidesOf(st)[i].seatsAvailable <= 0 ==>
      RidesOf(out.0)[i] == RidesOf(st)[i]
    ensures forall i :: 0 <= i < |RidesOf(st)| && RidesOf(st)[i].id == id && RidesOf(st)[i].seatsAvailable > 0 ==>
      RidesOf(out.0)[i] == RidesOf(st)[i].(seatsAvailable := RidesOf(st)[i].seatsAvailable - 1)
    ensures forall i :: 0 <= i < |RidesOf(st)| && RidesOf(st)[i].seatsAvailable >= 0 ==>
      RidesOf(out.0)[i].seatsAvailable >= 0
  {
    var rides := MapWhere(RidesOf(st), r => TakesSeat(r, id), TakeSeat);
    var st' := st.(rides := Present(rides));
    assert RidesOf(st') == rides;
    (st', true)
  }

  /** Joining a ride with no free seat under that id changes no ride, and still reports success. */
  lemma JoinFullRideIsNoOp(st: Store, id: string)
    requires forall i :: 0 <= i < |RidesOf(st)| && RidesOf(st)[i].id == id ==> RidesOf(st)[i].seatsAvailable <= 0
    ensures RidesOf(RidesJoin(st, id).0) == RidesOf(st)
    ensures RidesJoin(st, id).1
  {
  }

  /** `n` joins in a row on the only ride with the id and `n` free seats leave it with none. */
  lemma {:induction false} JoinDrainsSeats(st: Store, id: string, k: nat, n: nat)
    requires k < |RidesOf(st)| && RidesOf(st)[k].id == id
    requires forall i :: 0 <= i < |RidesOf(st)| && i != k ==> RidesOf(st)[i].id != id
    requires RidesOf(st)[k].seatsAvailable == n
    ensures |RidesOf(JoinTimes(st, id, n))| == |RidesOf(st)|
    ensures RidesOf(JoinTimes(st, id, n))[k] == RidesOf(st)[k].(seatsAvailable := 0)
    ensures forall i :: 0 <= i < |RidesOf(st)| && i != k ==> RidesOf(JoinTimes(st, id, n))[i] == RidesOf(st)[i]
    decreases n
  {
    if n > 0 {
      var st1 := RidesJoin(st, id).0;
      assert RidesOf(st1)[k] == RidesOf(st)[k].(seatsAvailable := n - 1);
      JoinDrainsSeats(st1, id, k, n - 1);
    }
  }

  /** The store after `n` joins of the same id. */
  function JoinTimes(st: Store, id: string, n: nat): Store
    decreases n
  {
    if n == 0 then st else JoinTimes(RidesJoin(st, id).0, id, n - 1)
  }

  function MarkRented(i: RentalItem): RentalItem {
    i.(status := Rented)
  }

  /**
    `items.book`: every item with the id is rented afterwards, whatever its
    status was; no other field and no other item changes; the answer is `true`.
   */
  function ItemsBook(st: Store, id: string): (out: (Store, bool))
    ensures out.1
    ensures out.0 == st.(items := Present(ItemsOf(out.0)))
    ensures |ItemsOf(out.0)| == |ItemsOf(st)|
    ensures forall i :: 0 <= i < |ItemsOf(st)| && ItemsOf(st)[i].id != id ==>
      ItemsOf(out.0)[i] == ItemsOf(st)[i]
    ensures forall i :: 0 <= i < |ItemsOf(st)| && ItemsOf(st)[i].id == id ==>
      ItemsOf(out.0)[i] == ItemsOf(st)[i].(status := Rented)
  {
    var items := MapWhere(ItemsOf(st), (i: RentalItem) => i.id == id, MarkRented);
    var st' := st.(items := Present(items));
    assert ItemsOf(st') == items;
    (st', true)
  }

  /** Booking the same id twice leaves the store as booking it once. */
  lemma BookIdempotent(st: Store, id: string)
    ensures ItemsBook(ItemsBook(st, id).0, id) == ItemsBook(st, id)
  {
    var st1 := ItemsBook(st, id).0;
    var st2 := ItemsBook(st1, id).0;
    assert ItemsOf(st2) == ItemsOf(st1);
  }

  function MarkAssigned(t: DeliveryTask): DeliveryTask {
    t.(status := Assigned)
  }

  /**
    `tasks.accept`: every task with the id is assigned afterwards, whatever its
    status was (an already assigned or completed task included); nothing else
    changes; the answer is `true`.
   */
  function TasksAccept(st: Store, id: string): (out: (Store, bool))
    ensures out.1
    ensures out.0 == st.(tasks := Present(TasksOf(out.0)))
    ensures |TasksOf(out.0)| == |TasksOf(st)|
    ensures forall i :: 0 <= i < |TasksOf(st)| && TasksOf(st)[i].id != id ==>
      TasksOf(out.0)[i] == TasksOf(st)[i]
    ensures forall i :: 0 <= i < |TasksOf(st)| && TasksOf(st)[i].id == id ==>
      TasksOf(out.0)[i] == TasksOf(st)[i].(status := Assigned)
  {
    var tasks := MapWhere(TasksOf(st), (t: DeliveryTask) => t.id == id, MarkAssigned);
    var st' := st.(tasks := Present(tasks));
    assert TasksOf(st') == tasks;
    (st', true)
  }

  /** Accepting the same id twice leaves the store as accepting it once. */
  lemma AcceptIdempotent(st: Store, id: string)
    ensures TasksAccept(TasksAccept(st, id).0, id) == TasksAccept(st, id)
  {
    var st1 := TasksAccept(st, id).0;
    var st2 := TasksAccept(st1, id).0;
    assert TasksOf(st2) == TasksOf(st1);
  }

  /**
    `bills.pay`: every bill with the id is paid afterwards and stamped with the
    clock reading `now`, keeping its id, amount, title and every other field;
    other bills are untouched; the answer is `true`.
   */
  function BillsPay(st: Store, id: string, now: string): (out: (Store, bool))
    ensures out.1
    ensures out.0 == st.(bills := Present(BillsOf(out.0)))
    ensures |BillsOf(out.0)| == |BillsOf(st)|
    ensures forall i :: 0 <= i < |BillsOf(st)| && BillsOf(st)[i].id != id ==>
      BillsOf(out.0)[i] == BillsOf(st)[i]
    ensures forall i :: 0 <= i < |BillsOf(st)| && BillsOf(st)[i].id == id ==>
      BillsOf(out.0)[i] == BillsOf(st)[i].(status := Paid, paidAt := Some(now))
  {
    var bills := MapWhere(BillsOf(st), (b: Bill) => b.id == id, (b: Bill) => b.(status := Paid, paidAt := Some(now)));
    var st' := st.(bills := Present(bills));
    assert BillsOf(st') == bills;
    (st', true)
  }

  /** Paying a bill again changes nothing but the payment stamp: it ends as a single payment at the later time. */
  lemma PayAgainRestamps(st: Store, id: string, first: string, second: string)
    ensures BillsPay(BillsPay(st, id, first).0, id, second) == BillsPay(st, id, second)
  {
    var st1 := BillsPay(st, id, first).0;
    var st2 := BillsPay(st1, id, second).0;
    var st3 := BillsPay(st, id, second).0;
    assert BillsOf(st2) == BillsOf(st3);
  }
}

=== FILE: ordering.dfy ===
/**
  The order `Array.prototype.sort` uses on strings when no comparator is given
  (code point by code point, a proper prefix first), and the sort itself.
 */
module Ordering {

  /** `a` sorts no later than `b`. */
  predicate LexLessEq(a: string, b: string) {
    |a| == 0 || (|b| > 0 && (a[0] < b[0] || (a[0] == b[0] && LexLessEq(a[1..], b[1..]))))
  }

  /** Any two strings are comparable. */
  lemma {:induction false} LexTotal(a: string, b: string)
    ensures LexLessEq(a, b) || LexLessEq(b, a)
  {
    if |a| > 0 && |b| > 0 && a[0] == b[0] {
      LexTotal(a[1..], b[1..]);
    }
  }

  /** Two strings that each sort no later than the other are equal. */
  lemma {:induction false} LexAntisymmetric(a: string, b: string)
    requires LexLessEq(a, b) && LexLessEq(b, a)
    ensures a == b
  {
    if |a| > 0 {
      LexAntisymmetric(a[1..], b[1..]);
      assert a == [a[0]] + a[1..] && b == [b[0]] + b[1..];
    }
  }

  /** Neighbouring elements are in order. */
  predicate Sorted(s: seq<string>) {
    forall i :: 0 < i < |s| ==> LexLessEq(s[i - 1], s[i])
  }

  /** Places `x` in front of the first element it sorts no later than. */
  function Insert(x: string, s: seq<string>): (r: seq<string>)
    requires Sorted(s)
    ensures Sorted(r)
    ensures multiset(r) == multiset(s) + multiset{x}
    ensures r[0] == x || (|s| > 0 && r[0] == s[0])
  {
    if |s| == 0 then [x]
    else if LexLessEq(x, s[0]) then [x] + s
    else
      LexTotal(x, s[0]);
      var tail := Insert(x, s[1..]);
      assert multiset(s) == multiset{s[0]} + multiset(s[1..]) by {
        assert s == [s[0]] + s[1..];
      }
      [s[0]] + tail
  }

  /** The default string sort: a sorted rearrangement of `s`. */
  function SortStrings(s: seq<string>): (r: seq<string>)
    ensures Sorted(r)
    ensures multiset(r) == multiset(s)
    ensures |r| == |s|
  {
    if |s| == 0 then []
    else
      assert multiset(s) == multiset{s[0]} + multiset(s[1..]) by {
        assert s == [s[0]] + s[1..];
      }
      assert |multiset(Insert(s[0], SortStrings(s[1..])))| == |s|;
      Insert(s[0], SortStrings(s[1..]))
  }

  /** Sorting an already sorted sequence leaves it as it is. */
  lemma {:induction false} SortSortedIsIdentity(s: seq<string>)
    requires Sorted(s)
    ensures SortStrings(s) == s
    decreases |s|
  {
    if |s| > 0 {
      SortSortedIsIdentity(s[1..]);
      if |s| > 1 {
        assert LexLessEq(s[0], s[1]);
      }
      assert [s[0]] + s[1..] == s;
    }
  }

  /** Sorting is idempotent. */
  lemma SortStringsIdempotent(s: seq<string>)
    ensures SortStrings(SortStrings(s)) == SortStrings(s)
  {
    SortSortedIsIdentity(SortStrings(s));
  }

  /** A pair sorts to the same sequence whichever element comes first. */
  lemma SortPairSymmetric(a: string, b: string)
    ensures SortStrings([a, b]) == SortStrings([b, a])
  {
    assert [a, b][1..] == [b];
    assert [b, a][1..] == [a];
    LexTotal(a, b);
    if LexLessEq(a, b) && LexLessEq(b, a) {
      LexAntisymmetric(a, b);
    }
  }
}

=== FILE: pooling.dfy ===
/**
  The ride-pooling screen: classifying a place as campus or city by keywords,
  the list filter over the rides, the defaults filled in when a ride is posted
  and when the join button is disabled.
 */
module Pooling {
  import opened Seqs
  import opened Text
  import opened Records
  import opened Storage
  import opened Listings

  // ------------------------------------------------------ place by keyword

  datatype Place = Campus | City | Elsewhere

  const CampusKeywords: seq<string> :=
    ["campus", "hostel", "iim", "library", "faculty", "mess", "h4", "h1", "h2", "h3"]
  const CityKeywords: seq<string> :=
    ["mall", "city", "station", "airport", "market", "raipur", "theater"]

  /** Some keyword occurs somewhere in `t`. */
  ghost predicate Mentions(t: string, keys: seq<string>) {
    exists j, i :: 0 <= j < |keys| && OccursAt(t, keys[j], i)
  }

  /** `keys.some(k => t.includes(k))`. */
  function MentionsAny(t: string, keys: seq<string>): (b: bool)
    ensures b <==> Mentions(t, keys)
    decreases |keys|
  {
    if |keys| == 0 then false
    else
      var rest := MentionsAny(t, keys[1..]);
      assert Mentions(t, keys[1..]) ==> Mentions(t, keys) by {
        if Mentions(t, keys[1..]) {
          var j, i :| 0 <= j < |keys[1..]| && OccursAt(t, keys[1..][j], i);
          assert OccursAt(t, keys[j + 1], i);
        }
      }
      assert Mentions(t, keys) && !Includes(t, keys[0]) ==> Mentions(t, keys[1..]) by {
        if Mentions(t, keys) && !Includes(t, keys[0]) {
          var j, i :| 0 <= j < |keys| && OccursAt(t, keys[j], i);
          assert j != 0;
          assert OccursAt(t, keys[1..][j - 1], i);
        }
      }
      Includes(t, keys[0]) || rest
  }

  /**
    `getLocationType`: a place whose lower-cased name contains a campus keyword
    is on campus, whatever city keyword it also contains; otherwise one with a
    city keyword is in the city; anything else is neither.
   */
  function LocationType(text: string): (p: Place)
    ensures p == Campus <==> Mentions(ToLower(text), CampusKeywords)
    ensures p == City <==> !Mentions(ToLower(text), CampusKeywords) && Mentions(ToLower(text), CityKeywords)
  {
    var t := ToLower(text);
    if MentionsAny(t, CampusKeywords) then Campus
    else if MentionsAny(t, CityKeywords) then City
    else Elsewhere
  }

  /** Capitals make no difference to the classification. */
  lemma LocationIgnoresCase(text: string)
    ensures LocationType(ToLower(text)) == LocationType(text)
  {
    ToLowerIdempotent(text);
  }

  /** The campus's own name contains the city keyword "raipur" and is still on campus. */
  lemma IimRaipurCampusIsCampus()
    ensures Mentions(ToLower("IIM Raipur Campus"), CityKeywords)
    ensures LocationType("IIM Raipur Campus") == Campus
  {
    var t := ToLower("IIM Raipur Campus");
    assert t[..3] == "iim";
    assert OccursAt(t, CampusKeywords[2], 0);
    assert t[4..10] == "raipur";
    assert OccursAt(t, CityKeywords[5], 4);
  }

  // -------------------------------------------------------------- the list

  /** The direction chips above the list. */
  datatype Direction = AnyDirection | ToCity | ToCampus

  /** Whether the screen lists `r` while browsing `browse` rides in direction `dir`. */
  predicate RideShown(r: Ride, browse: Mode, dir: Direction) {
    r.mode == browse &&
    match dir
    case AnyDirection => true
    case ToCity =>
      var from, to := LocationType(r.origin), LocationType(r.destination);
      to == City || (from == Campus && to != Campus)
    case ToCampus => LocationType(r.destination) == Campus
  }

  function Shown(browse: Mode, dir: Direction): Ride -> bool {
    (r: Ride) => RideShown(r, browse, dir)
  }

  function RideModeIs(browse: Mode): Ride -> bool {
    (r: Ride) => r.mode == browse
  }

  /**
    `filteredRides`: the rides listed, in their stored order, every one of the
    browsed mode, and every ride the chips admit among them.
   */
  function FilteredRides(rides: seq<Ride>, browse: Mode, dir: Direction): (r: seq<Ride>)
    ensures IsSubseq(r, rides)
    ensures forall i :: 0 <= i < |r| ==> r[i].mode == browse && RideShown(r[i], browse, dir)
    ensures forall i :: 0 <= i < |rides| && RideShown(rides[i], browse, dir) ==> rides[i] in r
    ensures forall x :: multiset(r)[x] == if RideShown(x, browse, dir) then multiset(rides)[x] else 0
  {
    FilterIsSubseq(rides, Shown(browse, dir));
    FilterMultiplicity(rides, Shown(browse, dir));
    Filter(rides, Shown(browse, dir))
  }

  /** With no direction chosen, the list is exactly the rides of the browsed mode. */
  lemma AnyDirectionKeepsMode(rides: seq<Ride>, browse: Mode)
    ensures FilteredRides(rides, browse, AnyDirection) == Filter(rides, RideModeIs(browse))
  {
    FilterCongruent(rides, Shown(browse, AnyDirection), RideModeIs(browse));
  }

  /** A direction only narrows the undirected list. */
  lemma DirectionNarrows(rides: seq<Ride>, browse: Mode, dir: Direction)
    ensures FilteredRides(rides, browse, dir) == Filter(FilteredRides(rides, browse, AnyDirection), Shown(browse, dir))
  {
    FilterFilter(rides, Shown(browse, AnyDirection), Shown(browse, dir));
    FilterCongruent(rides, Both(Shown(browse, AnyDirection), Shown(browse, dir)), Shown(browse, dir));
  }

  /** "To city": the destination has no campus keyword, and it has a city keyword or the origin a campus one. */
  lemma ToCityMeans(r: Ride, browse: Mode)
    ensures RideShown(r, browse, ToCity) <==>
      && r.mode == browse
      && !Mentions(ToLower(r.destination), CampusKeywords)
      && (Mentions(ToLower(r.destination), CityKeywords) || Mentions(ToLower(r.origin), CampusKeywords))
  {
  }

  /** "To campus": the destination has a campus keyword. */
  lemma ToCampusMeans(r: Ride, browse: Mode)
    ensures RideShown(r, browse, ToCampus) <==>
      r.mode == browse && Mentions(ToLower(r.destination), CampusKeywords)
  {
  }

  /** No ride passes both the "to city" and the "to campus" chip. */
  lemma ToCityNotToCampus(r: Ride, browse: Mode)
    ensures !(RideShown(r, browse, ToCity) && RideShown(r, browse, ToCampus))
  {
  }

  /** No ride is listed both under "to city" and under "to campus". */
  lemma DirectionsDisjoint(rides: seq<Ride>, browse: Mode)
    ensures forall x :: x in FilteredRides(rides, browse, ToCity) ==> x !in FilteredRides(rides, browse, ToCampus)
  {
    var city, campus := FilteredRides(rides, browse, ToCity), FilteredRides(rides, browse, ToCampus);
    forall x | x in city
      ensures x !in campus
    {
      ToCityNotToCampus(x, browse);
    }
  }

  // ------------------------------------------------------- posting, joining

  /** The posting form; the number fields are already numbers. */
  datatype RideForm = RideForm(
    origin: string,
    destination: string,
    date: string,
    time: string,
    seats: int,
    cost: int,
    vehicle: Vehicle,
    mode: Mode)

  const DefaultDate := "Today"

  /** `handleCreateRide`: the draft posted, the date falling back to today when left empty. */
  function RideDraftOfForm(f: RideForm): (d: RideDraft)
    ensures d.date != ""
    ensures f.date != "" ==> d.date == f.date
    ensures f.date == "" ==> d.date == DefaultDate
    ensures d.(date := f.date) == RideDraft(f.origin, f.destination, f.date, f.time, f.seats, f.cost, f.vehicle, f.mode)
  {
    RideDraft(f.origin, f.destination, if f.date == "" then DefaultDate else f.date,
              f.time, f.seats, f.cost, f.vehicle, f.mode)
  }

  /** A ride posted from the form is listed first and always carries a date. */
  lemma PostedRideIsDated(st: Store, f: RideForm, creator: User, freshId: string)
    ensures var out := RidesCreate(st, RideDraftOfForm(f), creator, freshId);
      && RidesOf(out.0)[0] == out.1 && out.1.date != "" && out.1.origin == f.origin && out.1.destination == f.destination
      && (f.date == "" ==> out.1.date == DefaultDate)
  {
  }

  /** The join button is disabled exactly when no seat is left. */
  predicate JoinDisabled(r: Ride) {
    r.seatsAvailable == 0
  }

  /** Joining a ride disables its button exactly when it had at most one seat left. */
  lemma JoinDisablesLastSeat(st: Store, id: string, k: nat)
    requires k < |RidesOf(st)| && RidesOf(st)[k].id == id
    requires RidesOf(st)[k].seatsAvailable >= 0
    ensures JoinDisabled(RidesOf(RidesJoin(st, id).0)[k]) <==> RidesOf(st)[k].seatsAvailable <= 1
  {
  }
}

=== FILE: records.dfy ===
/**
  The record shapes of `types.ts`. String-literal unions become enumerations;
  optional fields become `Option`s; a rating is held in tenths of a star
  (5.0 is 50) and money, seat counts and streaks are whole numbers.
 */
module Records {
  import opened Wrappers

  /** Whether a listing is supply (`offer`) or demand (`request`). */
  datatype Mode = Offer | Request
  datatype Vehicle = Car | Bike
  datatype Category = Academic | Electronics | Appliances | Sports | Misc
  datatype RateUnit = Hour | Day | Week
  datatype ItemStatus = Available | Rented
  datatype TaskStatus = Open | Assigned | Completed
  datatype BillStatus = Pending | Paid
  datatype BillKind = RideBill | RentBill | DeliveryBill | OtherBill
  /** The screen a conversation was started from. */
  datatype ContextType = PoolingContext | RentingContext | DeliveryContext

  datatype User = User(
    id: string,
    name: string,
    email: string,
    avatar: string,
    bio: Option<string>,
    ratingTenths: int,
    verified: bool,
    currentStreak: int,
    activityLog: seq<string>)

  /** A ride; `driver` is the creator (the driver of an offer, the passenger of a request). */
  datatype Ride = Ride(
    id: string,
    driver: User,
    origin: string,
    destination: string,
    date: string,
    time: string,
    seatsAvailable: int,
    costPerPerson: int,
    vehicle: Vehicle,
    mode: Mode)

  /** A rental listing; `owner` is the creator. A price of 0 means free to share. */
  datatype RentalItem = RentalItem(
    id: string,
    owner: User,
    title: string,
    category: Category,
    price: int,
    rateUnit: RateUnit,
    image: string,
    status: ItemStatus,
    mode: Mode)

  /** A delivery errand; `requester` is the creator. */
  datatype DeliveryTask = DeliveryTask(
    id: string,
    requester: User,
    title: string,
    description: string,
    pickup: string,
    dropoff: string,
    offerAmount: int,
    status: TaskStatus,
    deadline: string,
    mode: Mode)

  datatype Bill = Bill(
    id: string,
    userId: string,
    title: string,
    description: Option<string>,
    amount: int,
    dueDate: string,
    status: BillStatus,
    kind: BillKind,
    merchantName: string,
    paidAt: Option<string>)

  /** A conversation as stored: its participants, the listing it is about and its creation time. */
  datatype Chat = Chat(
    id: string,
    participants: seq<string>,
    contextType: ContextType,
    contextTitle: string,
    createdAt: string)

  /**
    A message as stored, with the id of its conversation. The timestamp is the
    clock reading in milliseconds, which is what the ordering compares.
   */
  datatype Message = Message(
    id: string,
    chatId: string,
    senderId: string,
    content: string,
    timestamp: nat)

  /** The fields of a new ride: everything but the id and the driver. */
  datatype RideDraft = RideDraft(
    origin: string,
    destination: string,
    date: string,
    time: string,
    seatsAvailable: int,
    costPerPerson: int,
    vehicle: Vehicle,
    mode: Mode)

  /** The fields of a new item: everything but the id, owner, image and status. */
  datatype ItemDraft = ItemDraft(
    title: string,
    category: Category,
    price: int,
    rateUnit: RateUnit,
    mode: Mode)

  /** The fields of a new task: everything but the id, requester and status. */
  datatype TaskDraft = TaskDraft(
    title: string,
    description: string,
    pickup: string,
    dropoff: string,
    offerAmount: int,
    deadline: string,
    mode: Mode)

  /** A `Partial<User>`: the fields an update overwrites. */
  datatype UserPatch = UserPatch(
    id: Option<string>,
    name: Option<string>,
    email: Option<string>,
    avatar: Option<string>,
    bio: Option<string>,
    ratingTenths: Option<int>,
    verified: Option<bool>,
    currentStreak: Option<int>,
    activityLog: Option<seq<string>>)
}

=== FILE: renting.dfy ===
/**
  The renting screen: the list filter by mode and category, the price an item
  is posted with, and when the book button is disabled.
 */
module Renting {
  import opened Seqs
  import opened Records
  import opened Storage
  import opened Listings

  /** The category chips: every category, or one. */
  datatype CategoryChoice = AllCategories | Only(category: Category)

  /** Whether the screen lists `i` while browsing `browse` items under `choice`. */
  predicate ItemShown(i: RentalItem, browse: Mode, choice: CategoryChoice) {
    i.mode == browse && (choice.AllCategories? || i.category == choice.category)
  }

  function Shown(browse: Mode, choice: CategoryChoice): RentalItem -> bool {
    (i: RentalItem) => ItemShown(i, browse, choice)
  }

  function ItemModeIs(browse: Mode): RentalItem -> bool {
    (i: RentalItem) => i.mode == browse
  }

  /**
    `filteredItems`: the items listed, in their stored order, every one of the
    browsed mode and, when one category is chosen, of that category; and every
    stored item meeting both is listed.
   */
  function FilteredItems(items: seq<RentalItem>, browse: Mode, choice: CategoryChoice): (r: seq<RentalItem>)
    ensures IsSubseq(r, items)
    ensures forall i :: 0 <= i < |r| ==>
      r[i].mode == browse && (choice.Only? ==> r[i].category == choice.category)
    ensures forall i :: 0 <= i < |items| && ItemShown(items[i], browse, choice) ==> items[i] in r
    ensures forall x :: multiset(r)[x] == if ItemShown(x, browse, choice) then multiset(items)[x] else 0
  {
    FilterIsSubseq(items, Shown(browse, choice));
    FilterMultiplicity(items, Shown(browse, choice));
    Filter(items, Shown(browse, choice))
  }

  /** The "All" chip constrains nothing beyond the mode. */
  lemma AllCategoriesKeepsMode(items: seq<RentalItem>, browse: Mode)
    ensures FilteredItems(items, browse, AllCategories) == Filter(items, ItemModeIs(browse))
  {
    FilterCongruent(items, Shown(browse, AllCategories), ItemModeIs(browse));
  }

  /** Choosing a category only narrows the "All" list. */
  lemma CategoryNarrows(items: seq<RentalItem>, browse: Mode, c: Category)
    ensures FilteredItems(items, browse, Only(c))
         == Filter(FilteredItems(items, browse, AllCategories), Shown(browse, Only(c)))
  {
    FilterFilter(items, Shown(browse, AllCategories), Shown(browse, Only(c)));
    FilterCongruent(items, Both(Shown(browse, AllCategories), Shown(browse, Only(c))), Shown(browse, Only(c)));
  }

  /** Renting an item out or lending it for free. */
  datatype Transaction = Rent | Share

  /** The posting form; the price is already a number. */
  datatype ItemForm = ItemForm(
    title: string,
    category: Category,
    price: int,
    rateUnit: RateUnit,
    mode: Mode,
    transaction: Transaction)

  /** `finalPrice`: a shared item is free, a rented one costs the price entered. */
  function FinalPrice(t: Transaction, price: int): (p: int)
    ensures t == Share ==> p == 0
    ensures t == Rent ==> p == price
  {
    match t
    case Share => 0
    case Rent => price
  }

  /** `handleCreateItem`: the draft posted from the form. */
  function ItemDraftOfForm(f: ItemForm): (d: ItemDraft)
    ensures d.price == FinalPrice(f.transaction, f.price)
    ensures d.(price := f.price) == ItemDraft(f.title, f.category, f.price, f.rateUnit, f.mode)
  {
    ItemDraft(f.title, f.category, FinalPrice(f.transaction, f.price), f.rateUnit, f.mode)
  }

  /** A shared item is listed first, free and available, whatever price was typed. */
  lemma SharedItemIsFree(st: Store, f: ItemForm, creator: User, freshId: string)
    requires f.transaction == Share
    ensures var out := ItemsCreate(st, ItemDraftOfForm(f), creator, freshId);
      ItemsOf(out.0)[0] == out.1 && out.1.price == 0 && out.1.status == Available
  {
  }

  /** The book button is disabled for rented items. */
  predicate BookDisabled(i: RentalItem) {
    i.status == Rented
  }

  /**
    After `items.book(id)` the button of every item with that id is disabled,
    and every other item's button is as it was.
   */
  lemma BookDisablesButton(st: Store, id: string)
    ensures var after := ItemsOf(ItemsBook(st, id).0);
      && |after| == |ItemsOf(st)|
      && (forall k :: 0 <= k < |after| && after[k].id == id ==> BookDisabled(after[k]))
      && (forall k :: 0 <= k < |after| && after[k].id != id ==> BookDisabled(after[k]) == BookDisabled(ItemsOf(st)[k]))
  {
  }
}

=== FILE: seeds.dfy ===
/**
  The fixtures of `constants.ts` that seed an empty store. The seed user's
  activity log is random in the source and is empty here.
 */
module Seeds {
  import opened Wrappers
  import opened Records

  const SeedUser := User(
    "u1", "Rahul Sharma", "rahul.s@iimraipur.ac.in",
    "https://picsum.photos/seed/rahul/100/100",
    Some("MBA Candidate 2025. Love cycling and reading."),
    48, true, 12, [])

  /** A listing creator: the seed user with another id, name, avatar and rating. */
  function Creator(id: string, name: string, avatar: string, ratingTenths: int): User {
    SeedUser.(id := id, name := name, avatar := avatar, ratingTenths := ratingTenths)
  }

  const MockRides: seq<Ride> := [
    Ride("r1", Creator("u2", "Amit Verma", "https://picsum.photos/seed/amit/100/100", 45),
         "IIM Raipur Campus", "City Center Mall", "Today", "4:00 PM", 2, 75, Car, Offer),
    Ride("r2", Creator("u3", "Priya Singh", "https://picsum.photos/seed/priya/100/100", 49),
         "Hostel Block A", "Railway Station", "Tomorrow", "10:00 AM", 3, 120, Car, Offer),
    Ride("r3", Creator("u4", "Karan Gill", "https://picsum.photos/seed/karan/100/100", 42),
         "Library", "Faculty Block", "Today", "9:00 PM", 1, 0, Bike, Offer),
    Ride("r4", Creator("u10", "Neha Roy", "https://picsum.photos/seed/neha/100/100", 46),
         "City Center Mall", "Hostel H4", "Today", "8:30 PM", 1, 50, Car, Request)
  ]

  const MockItems: seq<RentalItem> := [
    RentalItem("i1", Creator("u5", "Sneha Gupta", "https://picsum.photos/seed/sneha/100/100", 47),
               "Financial Management Textbook", Academic, 50, Day,
               "https://picsum.photos/seed/book/200/200", Available, Offer),
    RentalItem("i2", Creator("u6", "Rohan Das", "https://picsum.photos/seed/rohan/100/100", 46),
               "Philips Steam Iron", Appliances, 20, Hour,
               "https://picsum.photos/seed/iron/200/200", Available, Offer),
    RentalItem("i3", Creator("u7", "Vikram Malhotra", "https://picsum.photos/seed/vikram/100/100", 48),
               "Badminton Racket Set", Sports, 0, Day,
               "https://picsum.photos/seed/badminton/200/200", Available, Offer),
    RentalItem("i4", Creator("u11", "Arjun Reddy", "https://picsum.photos/seed/arjun/100/100", 43),
               "Scientific Calculator", Academic, 0, Day,
               "https://picsum.photos/seed/calculator/200/200", Available, Request)
  ]

  const MockTasks: seq<DeliveryTask> := [
    DeliveryTask("t1", Creator("u8", "Anjali P.", "https://picsum.photos/seed/anjali/100/100", 49),
                 "Groceries from City Market", "Need milk, bread, and eggs from the main market.",
                 "City Market", "Hostel H4, Room 202", 100, Open, "7:00 PM Today", Request),
    DeliveryTask("t2", Creator("u9", "David K.", "https://picsum.photos/seed/david/100/100", 44),
                 "Print Documents", "Print 50 pages from stationary shop near gate.",
                 "Campus Stationary", "Library Entrance", 40, Open, "2:00 PM Today", Request),
    DeliveryTask("t3", Creator("u12", "Sameer J.", "https://picsum.photos/seed/sameer/100/100", 47),
                 "Going to Magneto Mall", "Heading to mall for 2 hours. Can pick up food or small items.",
                 "Magneto Mall", "Hostel H2", 50, Open, "5:30 PM Today", Offer)
  ]

  const MockBills: seq<Bill> := [
    Bill("b1", "u1", "Ride to Airport", Some("Shared cab with Amit"), 250, "2024-03-28",
         Pending, RideBill, "Amit Verma", None),
    Bill("b2", "u1", "Canteen Snacks", Some("Evening snacks at H4 Canteen"), 45, "2024-03-25",
         Paid, OtherBill, "Campus Canteen", Some("2024-03-25")),
    Bill("b3", "u1", "Textbook Rental", Some("Financial Mgmt Book for 2 days"), 100, "2024-03-20",
         Paid, RentBill, "Sneha Gupta", Some("2024-03-20")),
    Bill("b4", "u1", "Delivery Fee", Some("Groceries from City Market"), 60, "2024-03-29",
         Pending, DeliveryBill, "David K.", None)
  ]

  /** The creators embedded in the seed listings, drivers first, then owners, then requesters. */
  function MockCreators(): (us: seq<User>)
    ensures |us| == |MockRides| + |MockItems| + |MockTasks|
  {
    seq(|MockRides|, i requires 0 <= i < |MockRides| => MockRides[i].driver)
    + seq(|MockItems|, i requires 0 <= i < |MockItems| => MockItems[i].owner)
    + seq(|MockTasks|, i requires 0 <= i < |MockTasks| => MockTasks[i].requester)
  }
}

=== FILE: seqs.dfy ===
/**
  `Array.prototype.filter` on sequences, with the facts the screens rely on:
  it keeps exactly the matching elements, in their original order, and a
  predicate together with its negation splits a sequence in two.
 */
module Seqs {
  import opened Wrappers

  /** The elements of `s` that satisfy `p`, in the order they appear in `s`. */
  function Filter<T>(s: seq<T>, p: T -> bool): (r: seq<T>)
    ensures |r| <= |s|
    ensures forall i :: 0 <= i < |r| ==> r[i] in s && p(r[i])
    ensures forall i :: 0 <= i < |s| && p(s[i]) ==> s[i] in r
  {
    if |s| == 0 then []
    else if p(s[0]) then [s[0]] + Filter(s[1..], p)
    else Filter(s[1..], p)
  }

  /** Filtering commutes with concatenation: the relative order of the survivors is the order in `s`. */
  lemma {:induction false} FilterAppend<T>(a: seq<T>, b: seq<T>, p: T -> bool)
    ensures Filter(a + b, p) == Filter(a, p) + Filter(b, p)
    decreases |a|
  {
    if |a| == 0 {
      assert a + b == b;
    } else {
      assert (a + b)[1..] == a[1..] + b;
      FilterAppend(a[1..], b, p);
    }
  }

  /** Filtering a one-element sequence keeps it exactly when it matches. */
  lemma FilterSingleton<T>(x: T, p: T -> bool)
    ensures Filter([x], p) == if p(x) then [x] else []
  {
  }

  /** Two predicates that agree on every element of `s` filter it identically. */
  lemma {:induction false} FilterCongruent<T>(s: seq<T>, p: T -> bool, q: T -> bool)
    requires forall i :: 0 <= i < |s| ==> p(s[i]) == q(s[i])
    ensures Filter(s, p) == Filter(s, q)
    decreases |s|
  {
    if |s| > 0 {
      FilterCongruent(s[1..], p, q);
    }
  }

  /** The conjunction of two predicates. */
  function Both<T>(p: T -> bool, q: T -> bool): T -> bool {
    x => p(x) && q(x)
  }

  /** Filtering twice is filtering by the conjunction. */
  lemma {:induction false} FilterFilter<T>(s: seq<T>, p: T -> bool, q: T -> bool)
    ensures Filter(Filter(s, p), q) == Filter(s, Both(p, q))
    decreases |s|
  {
    if |s| > 0 {
      FilterFilter(s[1..], p, q);
    }
  }

  /**
    A predicate and its complement partition `s`: every element lands in exactly
    one of the two views, so together they hold `s` as a multiset and their
    lengths add up to `|s|`.
   */
  lemma {:induction false} FilterPartition<T>(s: seq<T>, p: T -> bool, q: T -> bool)
    requires forall i :: 0 <= i < |s| ==> (q(s[i]) <==> !p(s[i]))
    ensures multiset(Filter(s, p)) + multiset(Filter(s, q)) == multiset(s)
    ensures |Filter(s, p)| + |Filter(s, q)| == |s|
    decreases |s|
  {
    if |s| > 0 {
      assert forall i :: 0 <= i < |s[1..]| ==> s[1..][i] == s[i + 1];
      FilterPartition(s[1..], p, q);
      PartitionStep(s, p, q);
    }
    assert |multiset(Filter(s, p))| == |Filter(s, p)|;
    assert |multiset(Filter(s, q))| == |Filter(s, q)|;
  }

  /** The partition of the tail extends to the whole sequence, whichever side the head falls on. */
  lemma PartitionStep<T>(s: seq<T>, p: T -> bool, q: T -> bool)
    requires |s| > 0 && (q(s[0]) <==> !p(s[0]))
    requires multiset(Filter(s[1..], p)) + multiset(Filter(s[1..], q)) == multiset(s[1..])
    ensures multiset(Filter(s, p)) + multiset(Filter(s, q)) == multiset(s)
  {
    var x, rest := s[0], s[1..];
    var a, b := multiset(Filter(rest, p)), multiset(Filter(rest, q));
    assert multiset(s) == multiset{x} + multiset(rest) by {
      assert s == [x] + rest;
    }
    FilterHead(s, p);
    FilterHead(s, q);
    if p(x) {
      assert multiset(Filter(s, p)) == multiset{x} + a;
      assert multiset(Filter(s, q)) == b;
    } else {
      assert multiset(Filter(s, p)) == a;
      assert multiset(Filter(s, q)) == multiset{x} + b;
    }
  }

  /** The filter of a non-empty sequence as its head's contribution followed by the filtered tail, as multisets. */
  lemma FilterHead<T>(s: seq<T>, p: T -> bool)
    requires |s| > 0
    ensures multiset(Filter(s, p)) == (if p(s[0]) then multiset{s[0]} else multiset{}) + multiset(Filter(s[1..], p))
  {
    if p(s[0]) {
      assert Filter(s, p) == [s[0]] + Filter(s[1..], p);
    }
  }

  /** A filter keeps every copy of a matching element and no copy of any other. */
  lemma FilterMultiplicity<T>(s: seq<T>, p: T -> bool)
    ensures forall x :: multiset(Filter(s, p))[x] == if p(x) then multiset(s)[x] else 0
  {
    forall x {
      FilterMultiplicityOf(s, p, x);
    }
  }

  /** How many copies of `x` a filter keeps: all of them when `x` matches, none otherwise. */
  lemma {:induction false} FilterMultiplicityOf<T>(s: seq<T>, p: T -> bool, x: T)
    ensures multiset(Filter(s, p))[x] == if p(x) then multiset(s)[x] else 0
    decreases |s|
  {
    if |s| > 0 {
      FilterMultiplicityOf(s[1..], p, x);
      FilterHead(s, p);
      assert multiset(s) == multiset{s[0]} + multiset(s[1..]) by {
        assert s == [s[0]] + s[1..];
      }
    }
  }

  /** `r` is `s` with some elements dropped and the rest in their original order. */
  ghost predicate IsSubseq<T>(r: seq<T>, s: seq<T>)
    decreases |s|
  {
    if |r| == 0 then true
    else if |s| == 0 then false
    else (r[0] == s[0] && IsSubseq(r[1..], s[1..])) || IsSubseq(r, s[1..])
  }

  /** What a filter keeps stays in its original order. */
  lemma {:induction false} FilterIsSubseq<T>(s: seq<T>, p: T -> bool)
    ensures IsSubseq(Filter(s, p), s)
    decreases |s|
  {
    if |s| > 0 {
      FilterIsSubseq(s[1..], p);
      if p(s[0]) {
        assert Filter(s, p)[1..] == Filter(s[1..], p);
      }
    }
  }

  /** The number of elements of `s` satisfying `p`: the `.filter(p).length` of the screens. */
  function Count<T>(s: seq<T>, p: T -> bool): (n: nat)
    ensures n <= |s|
    ensures n == 0 <==> forall i :: 0 <= i < |s| ==> !p(s[i])
  {
    FilterEmpty(s, p);
    |Filter(s, p)|
  }

  /** A filter keeps nothing exactly when no element satisfies the predicate. */
  lemma FilterEmpty<T>(s: seq<T>, p: T -> bool)
    ensures |Filter(s, p)| == 0 <==> forall i :: 0 <= i < |s| ==> !p(s[i])
  {
    var r := Filter(s, p);
    if |r| > 0 {
      var j :| 0 <= j < |s| && s[j] == r[0];
    }
  }

  /** Counting adds up over concatenation: each part contributes its own matches. */
  lemma CountAppend<T>(a: seq<T>, b: seq<T>, p: T -> bool)
    ensures Count(a + b, p) == Count(a, p) + Count(b, p)
  {
    FilterAppend(a, b, p);
  }

  /**
    A count changes only by what a single changed position contributes: when `b`
    agrees with `a` everywhere but at `k`, the two counts differ exactly by
    whether `a[k]` and `b[k]` satisfy `p`.
   */
  lemma {:induction false} CountPointChange<T>(a: seq<T>, b: seq<T>, p: T -> bool, k: nat)
    requires |a| == |b| && k < |a|
    requires forall i :: 0 <= i < |a| && i != k ==> a[i] == b[i]
    ensures Count(b, p) + (if p(a[k]) then 1 else 0) == Count(a, p) + (if p(b[k]) then 1 else 0)
    decreases |a|
  {
    if k == 0 {
      assert a[1..] == b[1..];
    } else {
      CountPointChange(a[1..], b[1..], p, k - 1);
      assert a[0] == b[0];
    }
  }

  /** The sum of `f` over `s`: a `reduce((sum, x) => sum + f(x), 0)`. */
  function SumOf<T>(s: seq<T>, f: T -> int): int
    decreases |s|
  {
    if |s| == 0 then 0 else f(s[0]) + SumOf(s[1..], f)
  }

  /** A sum of non-negative terms is non-negative. */
  lemma {:induction false} SumOfNonNegative<T>(s: seq<T>, f: T -> int)
    requires forall i :: 0 <= i < |s| ==> f(s[i]) >= 0
    ensures SumOf(s, f) >= 0
    decreases |s|
  {
    if |s| > 0 {
      SumOfNonNegative(s[1..], f);
    }
  }

  /** Summing adds up over concatenation. */
  lemma {:induction false} SumOfAppend<T>(a: seq<T>, b: seq<T>, f: T -> int)
    ensures SumOf(a + b, f) == SumOf(a, f) + SumOf(b, f)
    decreases |a|
  {
    if |a| == 0 {
      assert a + b == b;
    } else {
      assert (a + b)[1..] == a[1..] + b;
      SumOfAppend(a[1..], b, f);
    }
  }

  /**
    The sum over the elements satisfying `p` changes only by what a single
    changed position contributes, as in `CountPointChange`.
   */
  lemma {:induction false} FilteredSumPointChange<T>(a: seq<T>, b: seq<T>, p: T -> bool, f: T -> int, k: nat)
    requires |a| == |b| && k < |a|
    requires forall i :: 0 <= i < |a| && i != k ==> a[i] == b[i]
    ensures SumOf(Filter(b, p), f) + (if p(a[k]) then f(a[k]) else 0)
         == SumOf(Filter(a, p), f) + (if p(b[k]) then f(b[k]) else 0)
    decreases |a|
  {
    if k == 0 {
      assert a[1..] == b[1..];
      if p(a[0]) {
        assert Filter(a, p)[1..] == Filter(a[1..], p);
      }
      if p(b[0]) {
        assert Filter(b, p)[1..] == Filter(b[1..], p);
      }
    } else {
      FilteredSumPointChange(a[1..], b[1..], p, f, k - 1);
      assert a[0] == b[0];
      if p(a[0]) {
        assert Filter(a, p)[1..] == Filter(a[1..], p);
        assert Filter(b, p)[1..] == Filter(b[1..], p);
      }
    }
  }

  /** `findIndex`: the first position whose element satisfies `p`, if any. */
  function FirstIndex<T>(s: seq<T>, p: T -> bool): (r: Option<nat>)
    ensures r.Some? ==> r.value < |s| && p(s[r.value])
    ensures r.Some? ==> forall j :: 0 <= j < r.value ==> !p(s[j])
    ensures r.None? <==> forall j :: 0 <= j < |s| ==> !p(s[j])
  {
    if |s| == 0 then None
    else if p(s[0]) then Some(0)
    else match FirstIndex(s[1..], p)
      case Some(i) => Some(i + 1)
      case None => None
  }

  /** `s.map(x => hit(x) ? f(x) : x)`: the shape of every transition the store performs. */
  function MapWhere<T>(s: seq<T>, hit: T -> bool, f: T -> T): (r: seq<T>)
    ensures |r| == |s|
    ensures forall i :: 0 <= i < |s| && !hit(s[i]) ==> r[i] == s[i]
    ensures forall i :: 0 <= i < |s| && hit(s[i]) ==> r[i] == f(s[i])
  {
    seq(|s|, i requires 0 <= i < |s| => if hit(s[i]) then f(s[i]) else s[i])
  }
}

=== FILE: storage.dfy ===
/**
  The local persistence layer of `utils/db.ts`: seven storage keys, each absent
  until first written and then holding a whole collection. Every operation
  reads a collection with `GetData` (which seeds an absent key with its
  default) and writes the whole collection back.
 */
module Storage {
  import opened Records
  import opened Seeds

  /** One storage key: absent, or the records last saved under it. */
  datatype Slot<T> = Absent | Present(records: seq<T>)

  /**
    `localDb.getData`: the saved records, or `default` when nothing was saved,
    in which case `default` is saved first.
   */
  function GetData<T>(slot: Slot<T>, default: seq<T>): (out: (Slot<T>, seq<T>))
    ensures out.0 == Present(out.1)
    ensures slot.Present? ==> out == (slot, slot.records)
    ensures slot.Absent? ==> out.1 == default
  {
    match slot
    case Absent => (Present(default), default)
    case Present(rs) => (slot, rs)
  }

  /** Seeding happens at most once: a second read sees what the first saved, whatever default it passes. */
  lemma GetDataIdempotent<T>(slot: Slot<T>, default: seq<T>, other: seq<T>)
    ensures GetData(GetData(slot, default).0, other) == GetData(slot, default)
  {
  }

  /** The whole local database. */
  datatype Store = Store(
    users: Slot<User>,
    rides: Slot<Ride>,
    items: Slot<RentalItem>,
    tasks: Slot<DeliveryTask>,
    bills: Slot<Bill>,
    chats: Slot<Chat>,
    messages: Slot<Message>)

  // The defaults each key is seeded with.
  const DefaultUsers: seq<User> := [SeedUser]
  const DefaultChats: seq<Chat> := []
  const DefaultMessages: seq<Message> := []

  // The collection each operation sees when it reads a key.
  function UsersOf(st: Store): seq<User> { GetData(st.users, DefaultUsers).1 }
  function RidesOf(st: Store): seq<Ride> { GetData(st.rides, MockRides).1 }
  function ItemsOf(st: Store): seq<RentalItem> { GetData(st.items, MockItems).1 }
  function TasksOf(st: Store): seq<DeliveryTask> { GetData(st.tasks, MockTasks).1 }
  function BillsOf(st: Store): seq<Bill> { GetData(st.bills, MockBills).1 }
  function ChatsOf(st: Store): seq<Chat> { GetData(st.chats, DefaultChats).1 }
  function MessagesOf(st: Store): seq<Message> { GetData(st.messages, DefaultMessages).1 }

  // The store once a key has been read: an absent key now holds its default.
  function TouchUsers(st: Store): Store { st.(users := GetData(st.users, DefaultUsers).0) }
  function TouchChats(st: Store): Store { st.(chats := GetData(st.chats, DefaultChats).0) }
  function TouchMessages(st: Store): Store { st.(messages := GetData(st.messages, DefaultMessages).0) }

  /** Some user carries the seed user's id. */
  predicate HasSeedUser(users: seq<User>) {
    exists i :: 0 <= i < |users| && users[i].id == SeedUser.id
  }

  /**
    `ensureSeedUser`, run when the module loads: afterwards the seed user is
    among the users, the users seen before are kept in order at the front,
    and no other key changes.
   */
  function EnsureSeedUser(st: Store): (st': Store)
    ensures st'.users.Present?
    ensures exists i :: 0 <= i < |UsersOf(st')| && UsersOf(st')[i].id == SeedUser.id
    ensures UsersOf(st) <= UsersOf(st')
    ensures |UsersOf(st')| <= |UsersOf(st)| + 1
    ensures st'.(users := st.users) == st
    ensures HasSeedUser(UsersOf(st)) ==> UsersOf(st') == UsersOf(st)
    ensures !HasSeedUser(UsersOf(st)) ==> UsersOf(st') == UsersOf(st) + [SeedUser]
  {
    var users := UsersOf(st);
    if HasSeedUser(users) then
      var st' := st.(users := Present(users));
      assert UsersOf(st') == users;
      st'
    else
      var users' := users + [SeedUser];
      var st' := st.(users := Present(users'));
      assert UsersOf(st') == users';
      assert UsersOf(st')[|users|].id == SeedUser.id;
      st'
  }

  /** Running `ensureSeedUser` again changes nothing: the seed user is then already present. */
  lemma EnsureSeedUserIdempotent(st: Store)
    ensures EnsureSeedUser(EnsureSeedUser(st)) == EnsureSeedUser(st)
  {
    var once := EnsureSeedUser(st);
    assert HasSeedUser(UsersOf(once));
  }
}

=== FILE: text.dfy ===
/**
  The string helpers the data layer relies on: `trim`, `toLowerCase`, `includes`
  and the two whitespace regular expressions (`/\s/g` and `/\s+/g`).
  Strings are sequences of code points.
 */
module Text {
  import opened Seqs

  /** ECMAScript WhiteSpace and LineTerminator code points: what `trim` strips and `\s` matches. */
  predicate IsSpace(c: char) {
    || c == '\t' || c == '\n' || c == '\U{000B}' || c == '\U{000C}' || c == '\r' || c == ' '
    || c == '\U{00A0}' || c == '\U{1680}' || ('\U{2000}' <= c <= '\U{200A}')
    || c == '\U{2028}' || c == '\U{2029}' || c == '\U{202F}' || c == '\U{205F}'
    || c == '\U{3000}' || c == '\U{FEFF}'
  }

  predicate NoSpace(s: string) {
    forall k :: 0 <= k < |s| ==> !IsSpace(s[k])
  }

  predicate IsUpper(c: char) {
    'A' <= c <= 'Z'
  }

  predicate NoUpper(s: string) {
    forall k :: 0 <= k < |s| ==> !IsUpper(s[k])
  }

  /** Lower-cases one ASCII letter; every other code point is left alone. */
  function LowerChar(c: char): (d: char)
    ensures !IsUpper(d)
    ensures IsSpace(d) <==> IsSpace(c)
    ensures !IsUpper(c) ==> d == c
    ensures IsUpper(c) ==> d as int == c as int + 32
  {
    if IsUpper(c) then (c as int + 32) as char else c
  }

  /** `toLowerCase`, for the ASCII letters. */
  function ToLower(s: string): (r: string)
    ensures |r| == |s|
    ensures NoUpper(r)
    ensures forall k :: 0 <= k < |s| && !IsUpper(s[k]) ==> r[k] == s[k]
    ensures forall k :: 0 <= k < |s| && IsUpper(s[k]) ==> r[k] as int == s[k] as int + 32
    ensures forall k :: 0 <= k < |s| ==> (IsSpace(r[k]) <==> IsSpace(s[k]))
  {
    seq(|s|, k requires 0 <= k < |s| => LowerChar(s[k]))
  }

  /** Lower-casing works character by character, so it distributes over concatenation. */
  lemma ToLowerAppend(a: string, b: string)
    ensures ToLower(a + b) == ToLower(a) + ToLower(b)
  {
    assert forall k :: 0 <= k < |a| + |b| ==> ToLower(a + b)[k] == (ToLower(a) + ToLower(b))[k];
  }

  /** Lower-casing twice is lower-casing once. */
  lemma ToLowerIdempotent(s: string)
    ensures ToLower(ToLower(s)) == ToLower(s)
  {
  }

  /** Drops the leading whitespace: what remains is a suffix that starts with a non-space. */
  function TrimStart(s: string): (r: string)
    ensures |r| <= |s| && r == s[|s| - |r|..]
    ensures forall k :: 0 <= k < |s| - |r| ==> IsSpace(s[k])
    ensures |r| > 0 ==> !IsSpace(r[0])
    ensures NoSpace(s) ==> r == s
  {
    s[FirstNonSpace(s, 0)..]
  }

  /** The index of the first non-space at or after `i`, or `|s|` when there is none. */
  function FirstNonSpace(s: string, i: nat): (j: nat)
    requires i <= |s|
    ensures i <= j <= |s|
    ensures forall k :: i <= k < j ==> IsSpace(s[k])
    ensures j < |s| ==> !IsSpace(s[j])
    decreases |s| - i
  {
    if i < |s| && IsSpace(s[i]) then FirstNonSpace(s, i + 1) else i
  }

  /** Drops the trailing whitespace: what remains is a prefix that ends with a non-space. */
  function TrimEnd(s: string): (r: string)
    ensures |r| <= |s| && r == s[..|r|]
    ensures forall k :: |r| <= k < |s| ==> IsSpace(s[k])
    ensures |r| > 0 ==> !IsSpace(r[|r| - 1])
    ensures NoSpace(s) ==> r == s
  {
    s[..ContentEnd(s, |s|)]
  }

  /** The end of the prefix of `s[..j]` left once its trailing spaces are dropped. */
  function ContentEnd(s: string, j: nat): (e: nat)
    requires j <= |s|
    ensures e <= j
    ensures forall k :: e <= k < j ==> IsSpace(s[k])
    ensures e > 0 ==> !IsSpace(s[e - 1])
  {
    if j > 0 && IsSpace(s[j - 1]) then ContentEnd(s, j - 1) else j
  }

  /**
    `trim`: the result is the infix of `s` left once the whitespace on both ends
    is removed, and it neither starts nor ends with whitespace.
   */
  function Trim(s: string): (r: string)
    ensures |r| <= |s|
    ensures |r| > 0 ==> !IsSpace(r[0]) && !IsSpace(r[|r| - 1])
    ensures StrippedAt(s, r, |TrimEnd(s)| - |r|)
    ensures NoSpace(s) ==> r == s
  {
    var r := TrimStart(TrimEnd(s));
    StripBothEnds(s);
    r
  }

  lemma StripBothEnds(s: string)
    ensures StrippedAt(s, TrimStart(TrimEnd(s)), |TrimEnd(s)| - |TrimStart(TrimEnd(s))|)
  {
    var e := TrimEnd(s);
    var r := TrimStart(e);
    var i := |e| - |r|;
    assert r == s[i..i + |r|] by {
      assert e == s[..|e|];
      assert r == e[i..];
    }
    forall k | 0 <= k < i
      ensures IsSpace(s[k])
    {
      assert s[k] == e[k];
    }
  }

  /** `r` is the infix of `s` at `i`, and everything around it is whitespace. */
  ghost predicate StrippedAt(s: string, r: string, i: int) {
    && 0 <= i <= |s| - |r|
    && r == s[i..i + |r|]
    && (forall k :: 0 <= k < i ==> IsSpace(s[k]))
    && (forall k :: i + |r| <= k < |s| ==> IsSpace(s[k]))
  }

  /** Trimming a trimmed string changes nothing. */
  lemma TrimIdempotent(s: string)
    ensures Trim(Trim(s)) == Trim(s)
  {
  }

  /** The email normalisation `email.trim().toLowerCase()` used by sign-in and sign-up. */
  function NormalizeEmail(email: string): (r: string)
    ensures NoUpper(r)
    ensures |r| <= |email|
  {
    ToLower(Trim(email))
  }

  /** A normalised email normalises to itself, so storing it normalised loses nothing. */
  lemma {:induction false} NormalizeIdempotent(email: string)
    ensures NormalizeEmail(NormalizeEmail(email)) == NormalizeEmail(email)
  {
    var t := Trim(email);
    var n := ToLower(t);
    assert |n| > 0 ==> !IsSpace(n[0]) && !IsSpace(n[|n| - 1]);
    TrimKeepsEdgeFree(n);
    ToLowerIdempotent(t);
  }

  /** Text that neither starts nor ends with whitespace is its own trim. */
  lemma TrimKeepsEdgeFree(s: string)
    requires |s| > 0 ==> !IsSpace(s[0]) && !IsSpace(s[|s| - 1])
    ensures Trim(s) == s
  {
    assert ContentEnd(s, |s|) == |s|;
    assert TrimEnd(s) == s;
    assert FirstNonSpace(s, 0) == 0;
    assert TrimStart(s) == s;
  }

  /** Every character of `s` is whitespace. */
  predicate AllSpace(s: string) {
    forall k :: 0 <= k < |s| ==> IsSpace(s[k])
  }

  /**
    `trim` is determined by what it promises: an edge-free infix of `s` with only
    whitespace around it is the trim of `s`.
   */
  lemma TrimUnique(s: string, r: string, i: int)
    requires StrippedAt(s, r, i)
    requires |r| > 0 ==> !IsSpace(r[0]) && !IsSpace(r[|r| - 1])
    ensures Trim(s) == r
  {
    var t := Trim(s);
    var j := |TrimEnd(s)| - |t|;
    assert StrippedAt(s, t, j);
    assert |t| > 0 ==> t[0] == s[j] && t[|t| - 1] == s[j + |t| - 1];
    assert |r| > 0 ==> r[0] == s[i] && r[|r| - 1] == s[i + |r| - 1];
    if |r| == 0 && |t| > 0 {
      assert false;
    }
    if |t| == 0 && |r| > 0 {
      assert false;
    }
    if |r| > 0 && |t| > 0 {
      if i < j {
        assert false;
      }
      if j < i {
        assert false;
      }
      if i + |r| < j + |t| {
        assert false;
      }
      if j + |t| < i + |r| {
        assert false;
      }
    }
  }

  /** Whitespace added around a string does not change its trim. */
  lemma TrimIgnoresPadding(pre: string, s: string, post: string)
    requires AllSpace(pre) && AllSpace(post)
    ensures Trim(pre + s + post) == Trim(s)
  {
    var r := Trim(s);
    var o := |TrimEnd(s)| - |r|;
    assert StrippedAt(s, r, o);
    var p := pre + s + post;
    var i := |pre| + o;
    assert r == p[i..i + |r|] by {
      forall k | 0 <= k < |r|
        ensures r[k] == p[i + k]
      {
        assert p[i + k] == s[o + k];
      }
    }
    forall k | 0 <= k < i
      ensures IsSpace(p[k])
    {
      if k < |pre| {
        assert p[k] == pre[k];
      } else {
        assert p[k] == s[k - |pre|];
      }
    }
    forall k | i + |r| <= k < |p|
      ensures IsSpace(p[k])
    {
      if k < |pre| + |s| {
        assert p[k] == s[k - |pre|];
      } else {
        assert p[k] == post[k - |pre| - |s|];
      }
    }
    TrimUnique(p, r, i);
  }

  /** Lower-casing leaves whitespace where it was, so it commutes with `trim`. */
  lemma TrimToLower(s: string)
    ensures Trim(ToLower(s)) == ToLower(Trim(s))
  {
    var r := Trim(s);
    var o := |TrimEnd(s)| - |r|;
    assert StrippedAt(s, r, o);
    var l := ToLower(s);
    var lr := ToLower(r);
    LowerStripped(s, r, o);
    LowerKeepsEdges(r);
    TrimUnique(l, lr, o);
  }

  /** Lower-casing keeps text free of whitespace at its ends. */
  lemma LowerKeepsEdges(r: string)
    requires |r| > 0 ==> !IsSpace(r[0]) && !IsSpace(r[|r| - 1])
    ensures |ToLower(r)| > 0 ==> !IsSpace(ToLower(r)[0]) && !IsSpace(ToLower(r)[|r| - 1])
  {
  }

  /** Lower-casing both sides keeps an infix and the whitespace around it. */
  lemma LowerStripped(s: string, r: string, o: int)
    requires StrippedAt(s, r, o)
    ensures StrippedAt(ToLower(s), ToLower(r), o)
  {
    var l := ToLower(s);
    var lr := ToLower(r);
    forall k | 0 <= k < |r|
      ensures lr[k] == l[o + k]
    {
      assert r[k] == s[o + k];
    }
    assert lr == l[o..o + |r|];
  }

  /** Whitespace typed around an email does not change its normal form. */
  lemma NormalizeIgnoresPadding(pre: string, email: string, post: string)
    requires AllSpace(pre) && AllSpace(post)
    ensures NormalizeEmail(pre + email + post) == NormalizeEmail(email)
  {
    TrimIgnoresPadding(pre, email, post);
  }

  /** Upper-case letters in an email do not change its normal form. */
  lemma NormalizeIgnoresCase(email: string)
    ensures NormalizeEmail(ToLower(email)) == NormalizeEmail(email)
  {
    TrimToLower(email);
    ToLowerIdempotent(Trim(email));
  }

  /** `k` occurs in `t` starting at index `i`. */
  ghost predicate OccursAt(t: string, k: string, i: int) {
    0 <= i && i + |k| <= |t| && t[i..i + |k|] == k
  }

  /** `t.includes(k)`: true exactly when `k` occurs somewhere in `t`. */
  function Includes(t: string, k: string): (b: bool)
    ensures b <==> exists i :: OccursAt(t, k, i)
    decreases |t|
  {
    if |k| > |t| then
      false
    else if t[..|k|] == k then
      assert OccursAt(t, k, 0);
      true
    else
      var rest := Includes(t[1..], k);
      forall i | OccursAt(t[1..], k, i)
        ensures OccursAt(t, k, i + 1)
      {
        assert t[1..][i..i + |k|] == t[i + 1..i + 1 + |k|];
      }
      forall i | OccursAt(t, k, i)
        ensures OccursAt(t[1..], k, i - 1)
      {
        assert i != 0;
        assert t[1..][i - 1..i - 1 + |k|] == t[i..i + |k|];
      }
      rest
  }

  /** `s.replace(/\s/g, '')`: every whitespace code point is removed. */
  function RemoveSpaces(s: string): (r: string)
    ensures NoSpace(r)
    ensures |r| <= |s|
    ensures NoSpace(s) ==> r == s
    ensures forall c :: c in r ==> c in s
    ensures IsSubseq(r, s) && |r| == |s| - Count(s, IsSpace)
    decreases |s|
  {
    if |s| == 0 then ""
    else if IsSpace(s[0]) then RemoveSpaces(s[1..])
    else
      var rest := RemoveSpaces(s[1..]);
      assert ([s[0]] + rest)[1..] == rest;
      [s[0]] + rest
  }

  /** `s.replace(/\s+/g, '-')`: every maximal run of whitespace becomes one '-'. */
  function DashRuns(s: string): (r: string)
    ensures NoSpace(r)
    ensures |r| <= |s|
    ensures NoSpace(s) ==> r == s
    decreases |s|
  {
    if |s| == 0 then ""
    else if IsSpace(s[0]) then
      var rest := TrimStart(s);
      "-" + DashRuns(rest)
    else [s[0]] + DashRuns(s[1..])
  }

  /** Text without whitespace passes through unchanged in front of whatever follows it. */
  lemma DashRunsKeepsWord(w: string, s: string)
    requires NoSpace(w)
    ensures DashRuns(w + s) == w + DashRuns(s)
  {
    var t := w + s;
    assert t[..|w|] == w && t[|w|..] == s;
    DashRunsKeepsPrefix(t, |w|);
  }

  /** The first `n` characters of `t`, when none is whitespace, are copied as they are. */
  lemma {:induction false} DashRunsKeepsPrefix(t: string, n: nat)
    requires n <= |t| && NoSpace(t[..n])
    ensures DashRuns(t) == t[..n] + DashRuns(t[n..])
  {
    if n == 0 {
      assert t[..0] + DashRuns(t[0..]) == DashRuns(t) by {
        assert t[0..] == t;
      }
    } else {
      var m := n - 1;
      assert NoSpace(t[..m]) by {
        assert forall k :: 0 <= k < m ==> t[..m][k] == t[..n][k];
      }
      DashRunsKeepsPrefix(t, m);
      assert !IsSpace(t[m]) by {
        assert t[..n][m] == t[m];
      }
      var rest := DashRuns(t[n..]);
      assert DashRuns(t[m..]) == [t[m]] + rest by {
        assert t[m..] == [t[m]] + t[n..];
        DashRunsKeepsChar(t[m], t[n..]);
      }
      PrefixStep(t, m, rest);
    }
  }

  /** Extending a prefix by one character, in front of any tail. */
  lemma PrefixStep(t: string, m: nat, rest: string)
    requires m < |t|
    ensures t[..m] + ([t[m]] + rest) == t[..m + 1] + rest
  {
  }

  /** One non-space character is copied as it is. */
  lemma DashRunsKeepsChar(c: char, rest: string)
    requires !IsSpace(c)
    ensures DashRuns([c] + rest) == [c] + DashRuns(rest)
  {
    assert ([c] + rest)[1..] == rest;
  }

  /** A maximal run of whitespace, however long, becomes a single '-'. */
  lemma DashRunsCollapsesRun(ws: string, s: string)
    requires |ws| > 0 && forall k :: 0 <= k < |ws| ==> IsSpace(ws[k])
    requires |s| > 0 ==> !IsSpace(s[0])
    ensures DashRuns(ws + s) == "-" + DashRuns(s)
  {
    assert (ws + s)[0] == ws[0];
    TrimStartSkipsRun(ws, s);
  }

  /** `trimStart` removes a whitespace run up to the first non-space and nothing more. */
  lemma TrimStartSkipsRun(ws: string, s: string)
    requires forall k :: 0 <= k < |ws| ==> IsSpace(ws[k])
    requires |s| > 0 ==> !IsSpace(s[0])
    ensures TrimStart(ws + s) == s
  {
    var t := ws + s;
    var r := TrimStart(t);
    var cut := |t| - |r|;
    if cut < |ws| {
      assert false;
    }
    assert |ws| < |t| ==> t[|ws|] == s[0];
    if cut > |ws| {
      assert false;
    }
    assert t[|ws|..] == s;
  }

  /** Dashing whitespace runs twice is dashing them once: no whitespace is left after the first pass. */
  lemma DashRunsIdempotent(s: string)
    ensures DashRuns(DashRuns(s)) == DashRuns(s)
  {
  }
}

=== FILE: wrappers.dfy ===
/** Option and Result datatypes for lookups that may miss and operations that may throw. */
module Wrappers {

  datatype Option<+T> = None | Some(value: T) {
    function GetOr(default: T): T {
      match this
      case Some(v) => v
      case None => default
    }
  }

  /** The errors the local store throws; the names follow the messages of the thrown `Error`s. */
  datatype DbError =
    | UserNotFound          // "User not found"
    | UserAlreadyExists     // "User already exists"
    | UserToUpdateNotFound  // "User to update not found"

  datatype Result<+T> = Ok(value: T) | Err(error: DbError)
}
